=== FILE: README.md ===
# Habr article bot — a Dafny model of its core

The bot fetches the Habr article listing, pulls up to ten article summaries
out of the HTML, and shows them one at a time in Telegram. Under each
summary it puts an inline keyboard (Back / Read / Forward and a full-text
button), and it also tries to send a reply keyboard (Back / Forward). Pressing the
full-text button fetches the article page and sends its text.

This project models that core as pure functions over immutable data. The
parts are:

- `Wrappers`: `Option`, and Python truthiness of an optional string.
- `Text`: the Python string operations the code relies on:
  - `str.strip()`, using the full `str.isspace` character set;
  - `str.split(sep)`, which keeps empty pieces, and its inverse `Join`;
  - `str(i)` and `int(s)`.
- `Markdown`: `escape_markdown_v2`, modelled as the source writes it (18
  sequential `replace` passes), and `build_caption_md`. It also has a
  per-character reference escaper that the passes are proved equal to.
- `HabrParser`: `get_habr_articles` and `get_full_article_content`:
  - Selector cascades are modelled over abstract page records. A page maps
    each selector to what it matches; a node holds the elements each lookup
    finds, and whether extracting it raises.
  - The HTTP outcome is an input.
- `Ledger`: the per-user map of full-text message ids in `state.py`.
- `Keyboards`: `get_article_keyboard`, `get_reply_keyboard` and the
  callback-data strings.
- `Handlers`: the bot's state and its four handlers. `cmd_start` and
  `reply_nav` move one cursor; `paginate_articles` moves another;
  `show_full_content` uses the index carried in its callback data.

Two cursors exist because each handler module rebinds its own
`current_article_index` global, while the `articles` list object is shared.
`BotState` therefore keeps `replyCursor` and `callbackCursor` apart:

- `/start` resets only the reply cursor.
- The reply handlers clamp their cursor to the list.
- The inline handler moves its cursor without clamping, and renders only
  while it is in range.

`Handlers.CursorsDiverge` exhibits a run where the two cursors disagree, and
the inline Back button under the second article then shows nothing.

Some behaviour of the code is easy to misread, and the model states it
explicitly:

- Two cursors exist, and only the reply one is kept in range. The inline one
  can leave the range (`Handlers.CallbackCursorLeavesRange`).
- A link is `https://habr.com` prefixed to whatever `href` holds, even an
  empty one. No scheme is checked (`HabrParser.LinkFromChosenAnchor`).
- The ledger functions in `state.py` are never called by a handler. They are
  modelled on their own.
- Long full texts are not split into several messages. They are only cut at
  4000 characters (`HabrParser.LimitContent`).
- `cmd_start` empties the listing before it fetches. When the fetch raises,
  the listing stays empty and the reply cursor keeps its old value
  (`Handlers.FailedStartKeepsCursor`).
- The reply-keyboard messages call aiogram's `Message.answer` without its
  required text argument. That call raises `TypeError` in the client before
  anything is sent, which ends the handler. The reply keyboard is therefore
  never shown. The model records the call as `KeyboardWithoutText`; all
  state changes happen before it, so the state is unaffected.

The full-content message interpolates title, author, date and content
without escaping them, yet is sent as MarkdownV2. The truncation marker it
appends contains unescaped `.`, `(` and `)`. The model builds that text
exactly as written (`Handlers.FullContentLayout`), and does not model how
Telegram would reject it.

## Model

| member | source | states |
|---|---|---|
| Markdown.EscapeMarkdownV2 | src/bot/handlers/user_handlers.py:13-21 | the result is empty exactly when the text is None or empty, and escaping never shortens the text |
| Markdown.SpecialsWellFormed | src/bot/handlers/user_handlers.py:17 | the 18 reserved characters are pairwise distinct, exclude the backslash, and form exactly the reserved set |
| Markdown.EscapeIsCharMap | src/bot/handlers/user_handlers.py:13-21 | the sequential replace passes equal the per-character map: each reserved character becomes backslash + character, everything else is kept; None and "" give "" |
| Markdown.EscapeLength | src/bot/handlers/user_handlers.py:17-20 | escaped length is the input length plus the number of reserved characters |
| Markdown.EscapeNoSpecials | src/bot/handlers/user_handlers.py:17-20 | text without reserved characters comes back unchanged |
| Markdown.UnescapeEscape | src/bot/handlers/user_handlers.py:17-20 | dropping the backslash before each reserved character recovers the input |
| Markdown.EscapeTwice | src/bot/handlers/user_handlers.py:17-20 | escaping twice puts two backslashes before every reserved character |
| Markdown.EscapeNotIdempotent | src/bot/handlers/user_handlers.py:17-20 | escaping escaped text changes any text holding a reserved character, and lengthens it by their count |
| Markdown.CaptionLayout | src/bot/handlers/user_handlers.py:24-27 | the caption is bold escaped title, blank line, escaped description; its length; both fields read back by unescaping their slices |
| Markdown.BuildCaption | src/bot/handlers/user_handlers.py:24-27 | the caption opens with the bold marker and is at least as long as title and description plus the four markup characters |
| Markdown.BackslashBreaksEscape | src/bot/handlers/user_handlers.py:17-20 | a backslash before a reserved character leaves that character bare after escaping, so the text does not read back as plain text |
| Markdown.ReadPlainEscapeFull | src/bot/handlers/user_handlers.py:17-20 | escaping the backslash as well makes every text read back exactly |
| Text.StripIn | src/bot/parser/habr_parser.py:69 | the stripped text is a contiguous slice with no whitespace at either end, and is empty exactly when the input is all whitespace |
| Text.JoinSplit | src/bot/handlers/callback_handlers.py:15 | joining the pieces of a split with the separator gives back the input |
| Text.SplitJoin | src/bot/handlers/callback_handlers.py:72 | splitting a join of separator-free pieces gives back the pieces |
| Text.SplitCons | src/bot/handlers/callback_handlers.py:15 | a separator-free prefix followed by the separator is the first piece of the split |
| Text.ParseInt | src/bot/handlers/callback_handlers.py:72 | `int()` succeeds exactly on an optional sign followed by at least one ASCII digit |
| Text.ParseIntString | src/bot/keyboards/inline.py:24 | parsing the decimal text of any integer gives that integer back |
| HabrParser.FirstNonEmptyIsFirstMatch | src/bot/parser/habr_parser.py:44-57 | the nodes used are those of the first selector that matches anything, or none when no selector matches |
| HabrParser.TitleAndLink | src/bot/parser/habr_parser.py:62-90 | a link is either empty or starts with `https://habr.com`; a non-empty title neither starts nor ends with whitespace; with no title link and no h2, an h1 (else h3) without an anchor gives its stripped text as the title and no link |
| HabrParser.LinkFromChosenAnchor | src/bot/parser/habr_parser.py:65-90 | the link is the origin + the chosen anchor's href (the origin alone without href), unchecked, and empty exactly when no anchor is chosen; the title is the stripped span text of the title link when it has a span, else that link's text; for an h2, h1 or h3 anchor it is the stripped anchor text; a title without a link is the stripped text of the h1 or h3, and an anchorless h1 or h3 reached by the cascade always gives that text |
| HabrParser.H2WithoutAnchorBlocks | src/bot/parser/habr_parser.py:72-79 | an h2 without an anchor stops the cascade with an empty title, even when an h1 or h3 exists |
| HabrParser.ImageUrl | src/bot/parser/habr_parser.py:96-106 | the image is the src of the first image selector whose element has a non-empty src, else None |
| HabrParser.DescriptionText | src/bot/parser/habr_parser.py:109-120 | the description is the text of the first description selector that finds an element, else "" |
| HabrParser.Description | src/bot/parser/habr_parser.py:126 | a non-empty description text is kept; an empty one becomes "Описание отсутствует"; so it is never empty |
| HabrParser.ExtractNode | src/bot/parser/habr_parser.py:60-127 | a node yields an entry exactly when it does not raise and its title is non-empty; the entry's title and link come from the title cascade, its image from the image cascade, and its description is `Description` of the node |
| HabrParser.ExtractAllAppend | src/bot/parser/habr_parser.py:59-133 | extraction of a concatenation is the concatenation of the extractions |
| HabrParser.ExtractAllSplits | src/bot/parser/habr_parser.py:59-127 | cutting the nodes anywhere, the entries of the nodes before the cut come first, then those of the rest |
| HabrParser.RaisingNodeSkipped | src/bot/parser/habr_parser.py:131-133 | a node that raises is skipped and the loop goes on with the next |
| HabrParser.ExtractAllBounds | src/bot/parser/habr_parser.py:59-133 | never more entries than nodes, exactly as many when every node yields one, and every entry is the one some node yields |
| HabrParser.FirstNodes | src/bot/parser/habr_parser.py:59 | the first ten nodes, in order, or all of them when there are fewer |
| HabrParser.CapAtTen | src/bot/parser/habr_parser.py:59 | with ten or more extractable nodes, exactly ten entries come out: the entries of the first ten nodes, in order |
| HabrParser.ParseListing | src/bot/parser/habr_parser.py:44-133 | a downloaded listing yields at most ten entries, none when no node selector matches, and the entry of every one of the first ten chosen nodes that yields one, in document order |
| HabrParser.ListingShape | src/bot/parser/habr_parser.py:44-136 | a parsed listing has at most ten well-formed entries and is empty when no selector matches; its entries are exactly those of the first ten chosen nodes: each comes from one of them, and each of them that yields an entry contributes it, in document order |
| HabrParser.TitleIsStripped | src/bot/parser/habr_parser.py:69 | the title carries no whitespace at either end |
| HabrParser.GetHabrArticles | src/bot/parser/habr_parser.py:8-136 | a failed request gives []; the call raises exactly when building the soup or a `select` raises, or when no selector matches and the debug dump cannot be written; a page on which a selector matches gives exactly the parsed listing of that page; any returned list holds at most ten well-formed entries, and is [] when no selector matches |
| HabrParser.LimitContent | src/bot/parser/habr_parser.py:188-190 | text up to 4000 characters is kept; longer text is cut to its first 4000 followed by the continuation marker |
| HabrParser.GetFullArticleContent | src/bot/parser/habr_parser.py:139-217 | the url is always the requested one; request and parse failures give the fixed error titles, "Неизвестно" for author and date, and the reason after the fixed prefix |
| HabrParser.BodyText | src/bot/parser/habr_parser.py:168-173 | the content is the text of the first content selector that matches, or "" when none does |
| HabrParser.TextOr | src/bot/parser/habr_parser.py:179-186 | a missing element gives the field's sentinel; a present one gives its stripped text, which is "" exactly when that text is all whitespace |
| HabrParser.DetailSentinels | src/bot/parser/habr_parser.py:178-186 | a missing title, author or date is replaced by its own sentinel |
| HabrParser.DetailContent | src/bot/parser/habr_parser.py:168-190 | no or empty body gives the not-found sentinel; a body of up to 4000 characters is kept; a longer one is cut to 4000 plus the marker |
| Ledger.GetUserMessages | src/bot/state.py:8-10 | the user's ids, or [] for a user without an entry |
| Ledger.AddUserMessage | src/bot/state.py:12-16 | the id is appended to the user's list, creating it when absent; nobody else's entry changes |
| Ledger.ClearUserMessages | src/bot/state.py:18-29 | a non-empty list becomes [] after one deletion attempt per id, in order and only with a bot; an absent or empty entry is left alone |
| Ledger.AddAllInOrder | src/bot/state.py:12-16 | ids recorded one after another follow the existing ones in recording order; other users are untouched |
| Keyboards.ReadButton | src/bot/keyboards/inline.py:12-15 | the Read button opens the URL exactly when it is present and non-empty, and otherwise sends "read_more" |
| Keyboards.ArticleKeyboard | src/bot/keyboards/inline.py:3-27 | two rows; Back exactly past the first article, Read always, Forward exactly before the last, in that order; second row is the full-text button for this index |
| Keyboards.GetReplyKeyboard | src/bot/keyboards/reply.py:4-19 | one row with Back always and Forward exactly when there is a next article; resized, not one-time, not selective, with the placeholder |
| Keyboards.ReplyKeyboardIgnoresHasPrev | src/bot/keyboards/reply.py:4-11 | the reply keyboard does not depend on `has_prev` |
| Handlers.ArticleMessageAt | src/bot/handlers/user_handlers.py:88-102 | an article is shown with its image exactly when it has a non-empty one, and with the keyboard for its index and link |
| Handlers.ArticleCaption | src/bot/handlers/user_handlers.py:89 | the caption of an article message is the bold escaped title, a blank line and the escaped description |
| Handlers.CmdStart | src/bot/handlers/user_handlers.py:30-65 | greet and empty the listing; a fetch that raises ends the handler there, the reply cursor unchanged; otherwise the listing is the fetched one with the reply cursor at 0, followed by the first article and the text-less reply-keyboard call, or by the not-found text |
| Handlers.ReplyActionOf | src/bot/handlers/user_handlers.py:68-86 | the handler takes Back exactly for "⬅️ Назад" and Forward exactly for "Вперед ➡️", and no other text |
| Handlers.ReplyButtonsHandled | src/bot/handlers/user_handlers.py:68 | the two reply-keyboard texts are exactly what the reply handler accepts |
| Handlers.ReplyNav | src/bot/handlers/user_handlers.py:69-108 | with no articles, Back at the first or Forward at the last, only a notice is sent and the cursor stays; Back past the first moves the cursor down one and Forward before the last up one, and the article there is shown; the listing and the inline cursor never change |
| Handlers.KeyboardCallbacksRouted | src/bot/handlers/callback_handlers.py:12-68 | the inline keyboard's Back, Forward and full-text data each reach a handler; "read_more" reaches none |
| Handlers.PaginateAction | src/bot/handlers/callback_handlers.py:12-15 | the action is what follows `article_` up to the next underscore, and holds no underscore |
| Handlers.CursorDelta | src/bot/handlers/callback_handlers.py:17-20 | the cursor moves +1 exactly for "next", -1 exactly for "prev", and stays for any other action |
| Handlers.PaginateActionOf | src/bot/handlers/callback_handlers.py:15 | the action read from `article_<a>` is `a` whenever `a` has no underscore |
| Handlers.NavigationButtonsStep | src/bot/handlers/callback_handlers.py:15-20 | the Back and Forward callbacks move the inline cursor by exactly -1 and +1 |
| Handlers.RenderChoice | src/bot/handlers/callback_handlers.py:29-62 | edit the photo, edit the caption, send a new photo, or edit the text, chosen by whether the message has a photo and the article has an image |
| Handlers.Paginate | src/bot/handlers/callback_handlers.py:12-66 | the cursor moves without clamping; an article is rendered exactly when the new cursor is in range |
| Handlers.FullContentRequest | src/bot/handlers/callback_handlers.py:71-102 | the third `_`-field is parsed as an integer: a failed parse is a load error, an index inside the listing fetches that article's link, any other integer is not found |
| Handlers.FullContentDataRoundTrip | src/bot/handlers/callback_handlers.py:72-99 | the full-text button data of any index parses back to that index, which is fetched when in range and reported as not found otherwise |
| Handlers.FullContentMessage | src/bot/handlers/callback_handlers.py:85-89 | the message length is the sum of the fields and the fixed labels; it opens with the title marker and ends with the link's closing parenthesis |
| Handlers.FullContentLayout | src/bot/handlers/callback_handlers.py:85-89 | the message starts with the title line, then holds the author and the date at fixed offsets in that order, then the content verbatim, and ends with the link to the article |
| Handlers.ShowFullContent | src/bot/handlers/callback_handlers.py:69-104 | an index in range sends the assembled message; an out-of-range index or a failed parse ends in an alert |
| Handlers.Apply | src/bot/handlers/user_handlers.py:37-86 | every event keeps the reply cursor non-negative and inside the listing whenever the listing is non-empty |
| Handlers.ReplyCursorAlwaysInRange | src/bot/handlers/user_handlers.py:37-86 | over any run of events the reply cursor stays non-negative and inside any non-empty listing |
| Handlers.StartFromInitial | src/bot/handlers/user_handlers.py:37-39 | from the initial state, a successful /start gives the fetched listing with both cursors at 0 |
| Handlers.FailedStartKeepsCursor | src/bot/handlers/user_handlers.py:37-73 | a /start whose fetch raises empties the listing and keeps the reply cursor; both reply buttons then only ask for /start; a later successful /start puts the cursor back at 0 |
| Handlers.ForwardFromFirst | src/bot/handlers/user_handlers.py:81-83 | reply Forward on the first of two articles moves the reply cursor to 1 and leaves the inline cursor at 0 |
| Handlers.StartThenForward | src/bot/handlers/user_handlers.py:37-83 | /start with two articles followed by reply Forward leaves the reply cursor at 1 and the inline cursor at 0 |
| Handlers.CallbackCursorLeavesRange | src/bot/handlers/callback_handlers.py:17-22 | Back at the first article takes the inline cursor to -1 with nothing rendered; Forward then brings it to 0 and renders |
| Handlers.CursorsDiverge | src/bot/handlers/callback_handlers.py:14-22 | in the state `StartThenForward` reaches (reply cursor 1, inline cursor 0), the keyboard under article 1 carries Back, and that Back moves the inline cursor to -1 and shows nothing |

## Findings

| source | as written | input that shows it | evidently intended | confidence | as-written member | corrected member |
|---|---|---|---|---|---|---|
| src/bot/handlers/user_handlers.py:17-20 | the backslash is not among the escaped characters, so a backslash in the text escapes the backslash inserted before the next reserved character | a title containing `\*` becomes `\\*`, which Telegram reads as a literal backslash followed by a bare `*` that opens bold markup | every character of the title and description shows literally | medium, not executed | Markdown.BackslashBreaksEscape | Markdown.ReadPlainEscapeFull |

The handlers keep the escaper as written (`Markdown.EscapeMarkdownV2`),
because they model the text the bot actually sends. `Markdown.EscapeFull` is
the corrected escaper. `Markdown.ReadPlain` states how Telegram reads
MarkdownV2 text that is meant as plain text.

## Left out

- HTTP: requests, headers, cookies and timeouts are not modelled. Whether a request succeeds, fails or breaks during parsing is an input (`ListingResponse`, `ArticleResponse`).
- HTML parsing: BeautifulSoup itself is not modelled. A page or node is a record of what each `find`, `select` and `select_one` call returns, and `get_text` results are inputs.
- Logging is left out. The contents of the `debug_habr.html` dump written when no selector matches (habr_parser.py:53-56) are left out too; only whether writing it raises is modelled (`dumpWritable`).
- Telegram transport is left out: the `callback.answer()` calls, the loading notice, `parse_mode`, `disable_web_page_preview`, and deleting the old message after sending a new photo. Replies are data.
- The "Ошибка обновления" alert, raised when Telegram refuses an edit (callback_handlers.py:63-64), is not modelled. Telegram's decision is not visible to the model.
- The reply-keyboard calls (user_handlers.py:58-63, 103-108) omit the text argument that aiogram's `Message.answer` requires, so they raise `TypeError` before any request. They are modelled as the `KeyboardWithoutText` reply, the last reply of its handler; the exception itself and aiogram's logging of it are not modelled.
- An exception escaping `cmd_start` when `get_habr_articles` raises (user_handlers.py:38) is modelled only by its effect: the greeting is sent and the listing is left empty. The exception and its logging are not modelled.
- The articles returned by `get_habr_articles` are modelled as records of typed fields. A dictionary lookup of a missing key cannot happen in the model.
- Text.ParseInt: does not accept the surrounding whitespace, underscores between digits, or non-ASCII digits that Python's `int()` also accepts. The callback data it parses is always produced by `str()` of an integer, so these forms never reach it.
- Handlers.ShowFullContent: the not-found and load-error alerts are stated one way (case ⇒ alert). The alert texts can coincide for some exception messages.
- Handlers.ShowFullContent: when Telegram refuses the sent message (callback_handlers.py:92-96), for example over unescaped MarkdownV2, the source also ends in the load-error alert. The model sends the message and does not model that refusal.
- The ledger (`state.py`) is modelled on its own. No handler in the source calls it.
- Concurrency: the handlers run one event at a time. Interleaving of the async handlers is not modelled.
- Start-up and configuration (`app.py`, `loader.py`, `data/config.py`) are not part of this model. The listing URL is only used as the request target, which is an input here.

=== FILE: habr_parser.dfy ===
/** The extraction logic of src/bot/parser/habr_parser.py over abstract pages.

    The HTML library is not modelled: a listing page is the list of matches
    of each page-level CSS selector, a candidate node is a record of the
    sub-elements the parser looks up in it, and an article page is a record
    of the elements the full-content parser looks up. The HTTP exchange is an
    input: either a page or the failure that replaced it. */
module HabrParser {
  import opened Wrappers
  import Text

  // ---------------------------------------------------------------------------
  // Constants of the parser
  // ---------------------------------------------------------------------------

  /** Prefixed to every href taken from an anchor, whatever the href holds. */
  const Origin: string := "https://habr.com"

  /** At most this many candidate nodes are examined. */
  const MaxNodes: nat := 10

  const NodeSelectors: seq<string> := [
    "article.tm-articles-list__item",
    "article[data-test-id=\"article-card\"]",
    "article",
    ".tm-articles-list__item",
    "[data-test-id=\"article-card\"]"
  ]

  const ImageSelectors: seq<string> := [
    "img.tm-article-snippet__lead-image",
    "img[data-test-id=\"article-image\"]",
    "img"
  ]

  const DescriptionSelectors: seq<string> := [
    ".article-formatted-body",
    ".tm-article-snippet__lead",
    ".tm-article-snippet",
    "[data-test-id=\"article-snippet\"]"
  ]

  const NoDescription: string := "Описание отсутствует"

  const ContentSelectors: seq<string> := [
    ".article-formatted-body",
    ".tm-article-body",
    "[data-test-id=\"article-content\"]",
    ".post__text"
  ]

  /** Longest article body passed on before it is cut. */
  const MaxContent: nat := 4000
  const ContinuationMarker: string := "\n\n... (полный текст читайте по ссылке)"

  const ContentNotFound: string := "Содержимое статьи не найдено"
  const TitleNotFound: string := "Заголовок не найден"
  const AuthorNotFound: string := "Автор не найден"
  const DateNotFound: string := "Дата не найдена"

  const LoadErrorTitle: string := "Ошибка загрузки"
  const ParseErrorTitle: string := "Ошибка парсинга"
  const Unknown: string := "Неизвестно"
  const LoadErrorPrefix: string := "Не удалось загрузить статью: "
  const ParseErrorPrefix: string := "Ошибка при обработке статьи: "

  // ---------------------------------------------------------------------------
  // Abstract pages
  // ---------------------------------------------------------------------------

  /** An `<a>` element: its text, its `href` attribute (None when missing) and
      the text of its first `<span>` descendant, if it has one. */
  datatype Anchor = Anchor(text: string, href: Option<string>, span: Option<string>)

  /** A heading element: its text and its first `<a>` descendant. */
  datatype Heading = Heading(text: string, anchor: Option<Anchor>)

  /** The first element a CSS selector finds: its `get_text(strip=True)` and
      its `src` attribute (None when missing). */
  datatype Element = Element(text: string, src: Option<string>)

  /** One candidate article node of the listing page. `selectOne` maps a CSS
      selector to its first match inside the node; a selector without a match
      is not a key. `raises` stands for the HTML library failing while the
      node is processed. */
  datatype Node = Node(
    titleLink: Option<Anchor>,
    h2: Option<Heading>,
    h1: Option<Heading>,
    h3: Option<Heading>,
    selectOne: map<string, Element>,
    raises: bool)

  /** The listing page: all matches of each page-level selector, in document
      order; a selector without matches need not be a key. */
  datatype ListingPage = ListingPage(select: map<string, seq<Node>>)

  /** One listing entry, as the parser builds its dict. */
  datatype ArticleSummary = ArticleSummary(
    title: string, link: string, imageUrl: Option<string>, description: string)

  // ---------------------------------------------------------------------------
  // Page-level node selection
  // ---------------------------------------------------------------------------

  function Matches(page: ListingPage, sel: string): seq<Node> {
    if sel in page.select then page.select[sel] else []
  }

  /** The selector loop: the matches of the first selector that has any. */
  function FirstNonEmpty(page: ListingPage, sels: seq<string>): seq<Node>
    decreases |sels|
  {
    if |sels| == 0 then []
    else if |Matches(page, sels[0])| > 0 then Matches(page, sels[0])
    else FirstNonEmpty(page, sels[1..])
  }

  /** The position of the first selector with a match, |sels| when none has. */
  function FirstMatchingSelector(page: ListingPage, sels: seq<string>): (k: nat)
    ensures k <= |sels|
    ensures forall j :: 0 <= j < k ==> |Matches(page, sels[j])| == 0
    ensures k < |sels| ==> |Matches(page, sels[k])| > 0
    decreases |sels|
  {
    if |sels| == 0 then 0
    else if |Matches(page, sels[0])| > 0 then 0
    else 1 + FirstMatchingSelector(page, sels[1..])
  }

  /** The node list is the whole match list of the first selector that finds
      anything, used for the entire page, and [] when none finds anything. */
  lemma {:induction false} FirstNonEmptyIsFirstMatch(page: ListingPage, sels: seq<string>)
    ensures var k := FirstMatchingSelector(page, sels);
      FirstNonEmpty(page, sels) == if k < |sels| then Matches(page, sels[k]) else []
    ensures FirstNonEmpty(page, sels) == [] <==>
      forall j :: 0 <= j < |sels| ==> |Matches(page, sels[j])| == 0
    decreases |sels|
  {
    if |sels| > 0 && |Matches(page, sels[0])| == 0 {
      FirstNonEmptyIsFirstMatch(page, sels[1..]);
      assert forall j :: 1 <= j < |sels| ==> sels[j] == sels[1..][j - 1];
    }
  }

  // ---------------------------------------------------------------------------
  // One candidate node
  // ---------------------------------------------------------------------------

  datatype TitleLink = TitleLink(title: string, link: string)

  /** The link built from an anchor: the origin prefixed to `href or ''`. */
  function AnchorLink(a: Anchor): string {
    Origin + a.href.GetOr("")
  }

  /** The title cascade. The title link wins, preferring its span's text;
      otherwise an `h2` decides alone, giving nothing when it has no anchor;
      only without an `h2` is `h1`, else `h3`, tried, and a heading without an
      anchor then supplies its own text and no link. */
  function TitleAndLink(n: Node): (r: TitleLink)
    ensures r.link == "" || Origin <= r.link
    ensures |r.title| > 0 ==> r.title[0] !in Text.Whitespace && r.title[|r.title| - 1] !in Text.Whitespace
    ensures n.titleLink.None? && n.h2.None? && n.h1.Or(n.h3).Some? && n.h1.Or(n.h3).value.anchor.None? ==>
      r == TitleLink(Text.Strip(n.h1.Or(n.h3).value.text), "")
  {
    if n.titleLink.Some? then
      var a := n.titleLink.value;
      TitleLink(Text.Strip(a.span.GetOr(a.text)), AnchorLink(a))
    else if n.h2.Some? then
      if n.h2.value.anchor.Some? then
        var a := n.h2.value.anchor.value;
        TitleLink(Text.Strip(a.text), AnchorLink(a))
      else TitleLink("", "")
    else
      var header := n.h1.Or(n.h3);
      if header.Some? then
        if header.value.anchor.Some? then
          var a := header.value.anchor.value;
          TitleLink(Text.Strip(a.text), AnchorLink(a))
        else TitleLink(Text.Strip(header.value.text), "")
      else TitleLink("", "")
  }

  /** The anchor the cascade reads the link from, if any. */
  function ChosenAnchor(n: Node): Option<Anchor> {
    if n.titleLink.Some? then n.titleLink
    else if n.h2.Some? then n.h2.value.anchor
    else
      var header := n.h1.Or(n.h3);
      if header.Some? then header.value.anchor else None
  }

  /** The link is the origin plus the chosen anchor's href, unchecked, and it
      is empty exactly when no anchor was chosen. A title without a link
      comes from the text of an `h1`/`h3` heading, and such a heading without
      an anchor always supplies its stripped text as the title. */
  lemma LinkFromChosenAnchor(n: Node)
    ensures ChosenAnchor(n).Some? ==> TitleAndLink(n).link == Origin + ChosenAnchor(n).value.href.GetOr("")
    ensures ChosenAnchor(n).None? <==> TitleAndLink(n).link == ""
    ensures ChosenAnchor(n).None? && TitleAndLink(n).title != "" ==>
      n.titleLink.None? && n.h2.None? && n.h1.Or(n.h3).Some?
      && TitleAndLink(n).title == Text.Strip(n.h1.Or(n.h3).value.text)
    ensures n.titleLink.Some? ==>
      TitleAndLink(n).title == Text.Strip(n.titleLink.value.span.GetOr(n.titleLink.value.text))
    ensures n.titleLink.None? && ChosenAnchor(n).Some? ==>
      TitleAndLink(n).title == Text.Strip(ChosenAnchor(n).value.text)
    ensures n.titleLink.None? && n.h2.None? && n.h1.Or(n.h3).Some? && n.h1.Or(n.h3).value.anchor.None? ==>
      TitleAndLink(n) == TitleLink(Text.Strip(n.h1.Or(n.h3).value.text), "")
  {
  }

  /** An `h2` without an anchor gives no title, whatever `h1` and `h3` hold. */
  lemma H2WithoutAnchorBlocks(n: Node, h1: Option<Heading>, h3: Option<Heading>)
    requires n.titleLink.None? && n.h2.Some? && n.h2.value.anchor.None?
    ensures TitleAndLink(n.(h1 := h1, h3 := h3)) == TitleLink("", "")
  {
  }

  function SelectOne(n: Node, sel: string): Option<Element> {
    if sel in n.selectOne then Some(n.selectOne[sel]) else None
  }

  /** The src of `sel`'s first match when that src is non-empty. */
  function ImageAt(n: Node, sel: string): Option<string> {
    var e := SelectOne(n, sel);
    if e.Some? && Truthy(e.value.src) then e.value.src else None
  }

  /** The image loop: the first selector whose first match has a non-empty
      src supplies the image; None when there is no such selector. */
  function ImageUrl(n: Node, sels: seq<string>): (r: Option<string>)
    ensures r.Some? ==> |r.value| > 0
    ensures r.Some? <==> exists k :: 0 <= k < |sels| && ImageAt(n, sels[k]).Some?
    ensures r.Some? ==> exists k :: (0 <= k < |sels| && ImageAt(n, sels[k]) == r
                                     && forall j :: 0 <= j < k ==> ImageAt(n, sels[j]).None?)
    decreases |sels|
  {
    if |sels| == 0 then None
    else if ImageAt(n, sels[0]).Some? then ImageAt(n, sels[0])
    else
      var r := ImageUrl(n, sels[1..]);
      assert forall k :: 1 <= k < |sels| ==> sels[k] == sels[1..][k - 1];
      r
  }

  /** The description loop: the text of the first selector that matches at
      all, even when that text is empty; "" when none matches. */
  function DescriptionText(n: Node, sels: seq<string>): (r: string)
    ensures (forall k :: 0 <= k < |sels| ==> SelectOne(n, sels[k]).None?) ==> r == ""
    ensures forall k :: (0 <= k < |sels| && SelectOne(n, sels[k]).Some?
                         && (forall j :: 0 <= j < k ==> SelectOne(n, sels[j]).None?))
                        ==> r == SelectOne(n, sels[k]).value.text
    decreases |sels|
  {
    if |sels| == 0 then ""
    else if SelectOne(n, sels[0]).Some? then SelectOne(n, sels[0]).value.text
    else
      var r := DescriptionText(n, sels[1..]);
      assert forall k :: 1 <= k < |sels| ==> sels[k] == sels[1..][k - 1];
      r
  }

  /** `description or 'Описание отсутствует'`. */
  function Description(n: Node): (r: string)
    ensures |r| > 0
    ensures DescriptionText(n, DescriptionSelectors) != "" ==> r == DescriptionText(n, DescriptionSelectors)
    ensures DescriptionText(n, DescriptionSelectors) == "" ==> r == NoDescription
  {
    var d := DescriptionText(n, DescriptionSelectors);
    if d == "" then NoDescription else d
  }

  /** The body of the per-node `try`: None when the node raises or yields an
      empty title, else the entry built from the cascades. */
  function ExtractNode(n: Node): (r: Option<ArticleSummary>)
    ensures r.Some? <==> !n.raises && TitleAndLink(n).title != ""
    ensures r.Some? ==> r.value.title == TitleAndLink(n).title && r.value.link == TitleAndLink(n).link
    ensures r.Some? ==> r.value.imageUrl == ImageUrl(n, ImageSelectors)
    ensures r.Some? ==> r.value.description == Description(n) && |r.value.description| > 0
  {
    if n.raises then None
    else
      var tl := TitleAndLink(n);
      if tl.title == "" then None
      else Some(ArticleSummary(tl.title, tl.link, ImageUrl(n, ImageSelectors), Description(n)))
  }

  /** The present results of `f` over `xs`, in order. */
  function Collect<T, U>(xs: seq<T>, f: T -> Option<U>): seq<U>
  {
    if |xs| == 0 then []
    else (if f(xs[0]).Some? then [f(xs[0]).value] else []) + Collect(xs[1..], f)
  }

  lemma {:induction false} CollectAppend<T, U>(a: seq<T>, b: seq<T>, f: T -> Option<U>)
    ensures Collect(a + b, f) == Collect(a, f) + Collect(b, f)
  {
    if |a| == 0 {
      assert a + b == b;
    } else {
      var h := if f(a[0]).Some? then [f(a[0]).value] else [];
      assert (a + b)[0] == a[0];
      assert (a + b)[1..] == a[1..] + b;
      assert Collect(a + b, f) == h + Collect(a[1..] + b, f);
      CollectAppend(a[1..], b, f);
    }
  }

  lemma {:induction false} CollectBounds<T, U>(xs: seq<T>, f: T -> Option<U>)
    ensures |Collect(xs, f)| <= |xs|
    ensures (forall i :: 0 <= i < |xs| ==> f(xs[i]).Some?) ==> |Collect(xs, f)| == |xs|
    ensures forall u :: u in Collect(xs, f) ==> exists i :: 0 <= i < |xs| && f(xs[i]) == Some(u)
  {
    if |xs| > 0 {
      CollectBounds(xs[1..], f);
      forall u | u in Collect(xs, f)
        ensures exists i :: 0 <= i < |xs| && f(xs[i]) == Some(u)
      {
        if f(xs[0]) != Some(u) {
          assert u in Collect(xs[1..], f);
          var i :| 0 <= i < |xs[1..]| && f(xs[1..][i]) == Some(u);
          assert xs[i + 1] == xs[1..][i];
        }
      }
      if forall i :: 0 <= i < |xs| ==> f(xs[i]).Some? {
        assert forall i :: 0 <= i < |xs[1..]| ==> xs[1..][i] == xs[i + 1];
      }
    }
  }

  /** Every present result of `f` over `xs` is collected. */
  lemma {:induction false} CollectComplete<T, U>(xs: seq<T>, f: T -> Option<U>)
    ensures forall i :: 0 <= i < |xs| && f(xs[i]).Some? ==> f(xs[i]).value in Collect(xs, f)
  {
    if |xs| > 0 {
      CollectComplete(xs[1..], f);
      forall i | 0 <= i < |xs| && f(xs[i]).Some?
        ensures f(xs[i]).value in Collect(xs, f)
      {
        if i > 0 {
          assert xs[i] == xs[1..][i - 1];
        }
      }
    }
  }

  /** When every result is present, the collection is the results in order. */
  lemma {:induction false} CollectAllPresent<T, U>(xs: seq<T>, f: T -> Option<U>)
    requires forall i :: 0 <= i < |xs| ==> f(xs[i]).Some?
    ensures |Collect(xs, f)| == |xs|
    ensures forall i :: 0 <= i < |xs| ==> Collect(xs, f)[i] == f(xs[i]).value
  {
    if |xs| > 0 {
      assert forall i :: 0 <= i < |xs[1..]| ==> xs[1..][i] == xs[i + 1];
      CollectAllPresent(xs[1..], f);
      assert Collect(xs, f) == [f(xs[0]).value] + Collect(xs[1..], f);
    }
  }

  /** The node loop: each node on its own, skipped entries dropped. */
  function ExtractAll(nodes: seq<Node>): seq<ArticleSummary>
  {
    Collect(nodes, ExtractNode)
  }

  /** Nodes are processed independently and in document order: the result
      for a concatenation is the concatenation of the results. */
  lemma ExtractAllAppend(a: seq<Node>, b: seq<Node>)
    ensures ExtractAll(a + b) == ExtractAll(a) + ExtractAll(b)
  {
    CollectAppend(a, b, ExtractNode);
  }

  /** Document order: cut the nodes anywhere, and the entries of the nodes
      before the cut come first, followed by the entries of the rest. */
  lemma ExtractAllSplits(nodes: seq<Node>)
    ensures forall k :: 0 <= k <= |nodes| ==> ExtractAll(nodes) == ExtractAll(nodes[..k]) + ExtractAll(nodes[k..])
  {
    forall k | 0 <= k <= |nodes|
      ensures ExtractAll(nodes) == ExtractAll(nodes[..k]) + ExtractAll(nodes[k..])
    {
      assert nodes == nodes[..k] + nodes[k..];
      ExtractAllAppend(nodes[..k], nodes[k..]);
    }
  }

  /** A node that raises is skipped and changes nothing about the others. */
  lemma RaisingNodeSkipped(a: seq<Node>, n: Node, b: seq<Node>)
    requires n.raises
    ensures ExtractAll(a + [n] + b) == ExtractAll(a) + ExtractAll(b)
  {
    assert a + [n] + b == a + ([n] + b);
    CollectAppend(a, [n] + b, ExtractNode);
    assert ([n] + b)[1..] == b;
    assert ExtractNode(n).None?;
  }

  /** Every entry comes from one of the nodes, so there are never more
      entries than nodes, and there are exactly as many when every node
      yields one. */
  lemma ExtractAllBounds(nodes: seq<Node>)
    ensures |ExtractAll(nodes)| <= |nodes|
    ensures (forall i :: 0 <= i < |nodes| ==> ExtractNode(nodes[i]).Some?) ==> |ExtractAll(nodes)| == |nodes|
    ensures forall a :: a in ExtractAll(nodes) ==> exists i :: 0 <= i < |nodes| && ExtractNode(nodes[i]) == Some(a)
  {
    CollectBounds(nodes, ExtractNode);
  }

  // ---------------------------------------------------------------------------
  // get_habr_articles
  // ---------------------------------------------------------------------------

  /** Everything after a successful download: pick the node list, keep the
      first ten nodes, extract each. */
  function ParseListing(page: ListingPage): (r: seq<ArticleSummary>)
    ensures |r| <= MaxNodes
    ensures FirstNonEmpty(page, NodeSelectors) == [] ==> r == []
    ensures var nodes := FirstNodes(FirstNonEmpty(page, NodeSelectors));
      forall i :: 0 <= i < |nodes| && ExtractNode(nodes[i]).Some? ==> ExtractNode(nodes[i]).value in r
    ensures var nodes := FirstNodes(FirstNonEmpty(page, NodeSelectors));
      forall k :: 0 <= k <= |nodes| ==> r == ExtractAll(nodes[..k]) + ExtractAll(nodes[k..])
  {
    var nodes := FirstNodes(FirstNonEmpty(page, NodeSelectors));
    ExtractAllBounds(nodes);
    CollectComplete(nodes, ExtractNode);
    ExtractAllSplits(nodes);
    ExtractAll(nodes)
  }

  /** `nodes[:10]`: the first ten nodes, or all of them when there are fewer. */
  function FirstNodes(nodes: seq<Node>): (r: seq<Node>)
    ensures |r| <= MaxNodes && |r| <= |nodes|
    ensures forall i :: 0 <= i < |r| ==> r[i] == nodes[i]
    ensures |nodes| >= MaxNodes ==> |r| == MaxNodes
    ensures |nodes| < MaxNodes ==> r == nodes
  {
    if |nodes| <= MaxNodes then nodes else nodes[..MaxNodes]
  }

  /** How the listing download went. `ListingDownloaded` also says whether
      the debug dump, written only when no selector matches, can be written;
      `ListingUnparseable` stands for building the soup or running a
      `select` raising. Both of those raise outside any `try`. */
  datatype ListingResponse =
    | ListingRequestFailed
    | ListingDownloaded(page: ListingPage, dumpWritable: bool)
    | ListingUnparseable

  /** `get_habr_articles`, with the download as an input. None: the function
      raised instead of returning. A failed request (any `RequestException`,
      a non-2xx status included) gives [], and so does a page on which no
      selector matches, once its dump is written. */
  function GetHabrArticles(response: ListingResponse): (r: Option<seq<ArticleSummary>>)
    ensures r.None? <==> response.ListingUnparseable?
                         || (response.ListingDownloaded? && !response.dumpWritable
                             && FirstNonEmpty(response.page, NodeSelectors) == [])
    ensures response.ListingRequestFailed? ==> r == Some([])
    ensures response.ListingDownloaded? && FirstNonEmpty(response.page, NodeSelectors) == [] && r.Some?
      ==> r.value == []
    ensures response.ListingDownloaded? && FirstNonEmpty(response.page, NodeSelectors) != [] ==>
      r == Some(ParseListing(response.page))
    ensures r.Some? ==> |r.value| <= MaxNodes
    ensures r.Some? ==> forall a :: a in r.value ==> WellFormedEntry(a)
  {
    match response
    case ListingRequestFailed => Some([])
    case ListingUnparseable => None
    case ListingDownloaded(page, dumpWritable) =>
      if FirstNonEmpty(page, NodeSelectors) == [] then
        if dumpWritable then Some([]) else None
      else
        ListingShape(page);
        Some(ParseListing(page))
  }

  /** Every entry has a non-blank title that neither starts nor ends with
      whitespace, a non-empty description, and an image URL that is
      non-empty when present. */
  predicate WellFormedEntry(a: ArticleSummary) {
    && |a.title| > 0 && a.title[0] !in Text.Whitespace && a.title[|a.title| - 1] !in Text.Whitespace
    && |a.description| > 0
    && (a.imageUrl.Some? ==> |a.imageUrl.value| > 0)
  }

  lemma EntriesWellFormed(nodes: seq<Node>)
    ensures forall a :: a in ExtractAll(nodes) ==> WellFormedEntry(a)
  {
    ExtractAllBounds(nodes);
    forall a | a in ExtractAll(nodes) ensures WellFormedEntry(a) {
      var i :| 0 <= i < |nodes| && ExtractNode(nodes[i]) == Some(a);
      NodeEntryWellFormed(nodes[i]);
    }
  }

  lemma NodeEntryWellFormed(n: Node)
    ensures ExtractNode(n).Some? ==> WellFormedEntry(ExtractNode(n).value)
  {
    if ExtractNode(n).Some? {
      var e := ExtractNode(n).value;
      TitleIsStripped(n);
      assert e.title == TitleAndLink(n).title;
      assert e.imageUrl == ImageUrl(n, ImageSelectors);
      assert |e.description| > 0;
    }
  }

  /** The listing holds at most ten well-formed entries. They are exactly
      the entries of the first ten nodes of the chosen selector: each comes
      from one of those nodes, and each of those nodes that yields an entry
      contributes it, in document order. The listing is [] when no
      page-level selector matches. */
  lemma ListingShape(page: ListingPage)
    ensures |ParseListing(page)| <= MaxNodes
    ensures forall a :: a in ParseListing(page) ==> WellFormedEntry(a)
    ensures (forall j :: 0 <= j < |NodeSelectors| ==> |Matches(page, NodeSelectors[j])| == 0)
      ==> ParseListing(page) == []
    ensures var nodes := FirstNonEmpty(page, NodeSelectors);
      forall a :: a in ParseListing(page) ==>
        exists i :: 0 <= i < |nodes| && i < MaxNodes && ExtractNode(nodes[i]) == Some(a)
    ensures var nodes := FirstNodes(FirstNonEmpty(page, NodeSelectors));
      forall i :: 0 <= i < |nodes| && ExtractNode(nodes[i]).Some? ==> ExtractNode(nodes[i]).value in ParseListing(page)
    ensures var nodes := FirstNodes(FirstNonEmpty(page, NodeSelectors));
      forall k :: 0 <= k <= |nodes| ==> ParseListing(page) == ExtractAll(nodes[..k]) + ExtractAll(nodes[k..])
  {
    var nodes := FirstNonEmpty(page, NodeSelectors);
    FirstNonEmptyIsFirstMatch(page, NodeSelectors);
    var examined := FirstNodes(nodes);
    ExtractAllBounds(examined);
    EntriesWellFormed(examined);
    CollectComplete(examined, ExtractNode);
  }

  /** A non-empty title never starts or ends with whitespace. */
  lemma TitleIsStripped(n: Node)
    ensures var t := TitleAndLink(n).title;
      |t| > 0 ==> t[0] !in Text.Whitespace && t[|t| - 1] !in Text.Whitespace
  {
  }

  /** With ten or more extractable nodes, exactly the first ten become
      entries, in order. */
  lemma CapAtTen(nodes: seq<Node>)
    requires |nodes| >= MaxNodes
    requires forall i :: 0 <= i < MaxNodes ==> ExtractNode(nodes[i]).Some?
    ensures |ExtractAll(FirstNodes(nodes))| == MaxNodes
    ensures forall i :: 0 <= i < MaxNodes ==> ExtractAll(FirstNodes(nodes))[i] == ExtractNode(nodes[i]).value
  {
    var examined := FirstNodes(nodes);
    assert forall i :: 0 <= i < |examined| ==> ExtractNode(examined[i]).Some?;
    CollectAllPresent(examined, ExtractNode);
  }

  // ---------------------------------------------------------------------------
  // get_full_article_content
  // ---------------------------------------------------------------------------

  /** An article page. `selectOne` maps each content selector to the
      `get_text(separator='\n', strip=True)` of its first match; the other
      fields are the texts of the first `h1.tm-title`, first `h1`, first
      `a.tm-user-info__username`, first `span.tm-user-info__username`, first
      `time` and first `span.tm-article-datetime`, when present. */
  datatype ArticlePage = ArticlePage(
    selectOne: map<string, string>,
    h1Title: Option<string>,
    h1: Option<string>,
    authorLink: Option<string>,
    authorSpan: Option<string>,
    time: Option<string>,
    datetimeSpan: Option<string>)

  /** How the download and parse of an article went: a page, a
      `RequestException` with its message, or any other exception raised
      while parsing, with its message. */
  datatype ArticleResponse =
    | Downloaded(page: ArticlePage)
    | RequestFailed(reason: string)
    | ParseFailed(reason: string)

  datatype ArticleDetail = ArticleDetail(
    title: string, author: string, date: string, content: string, url: string)

  /** The content loop: the text of the first selector that matches at all. */
  function BodyText(page: ArticlePage, sels: seq<string>): (r: string)
    ensures (forall k :: 0 <= k < |sels| ==> sels[k] !in page.selectOne) ==> r == ""
    ensures forall k :: (0 <= k < |sels| && sels[k] in page.selectOne
                         && (forall j :: 0 <= j < k ==> sels[j] !in page.selectOne))
                        ==> r == page.selectOne[sels[k]]
    decreases |sels|
  {
    if |sels| == 0 then ""
    else if sels[0] in page.selectOne then page.selectOne[sels[0]]
    else
      var r := BodyText(page, sels[1..]);
      assert forall k :: 1 <= k < |sels| ==> sels[k] == sels[1..][k - 1];
      r
  }

  /** Cuts content over the budget to its first 4000 characters followed by
      the continuation marker; shorter content passes unchanged. */
  function LimitContent(c: string): (r: string)
    ensures |r| <= MaxContent + |ContinuationMarker|
    ensures |c| <= MaxContent ==> r == c
    ensures |c| > MaxContent ==> |r| == MaxContent + |ContinuationMarker|
    ensures |c| > MaxContent ==> r[..MaxContent] == c[..MaxContent] && r[MaxContent..] == ContinuationMarker
  {
    if |c| > MaxContent then c[..MaxContent] + ContinuationMarker else c
  }

  /** The text of an optional element, or the field's sentinel when absent.
      An element whose text strips to "" gives "", not the sentinel. */
  function TextOr(e: Option<string>, sentinel: string): (r: string)
    ensures e.None? ==> r == sentinel
    ensures e.Some? ==> (r == "" <==> forall i :: 0 <= i < |e.value| ==> e.value[i] in Text.Whitespace)
  {
    if e.Some? then Text.Strip(e.value) else sentinel
  }

  /** `get_full_article_content`, with the download as an input. */
  function GetFullArticleContent(articleUrl: string, response: ArticleResponse): (r: ArticleDetail)
    ensures r.url == articleUrl
    ensures response.Downloaded? ==> |r.content| <= MaxContent + |ContinuationMarker| && |r.content| > 0
    ensures response.RequestFailed? ==>
      r == ArticleDetail(LoadErrorTitle, Unknown, Unknown, LoadErrorPrefix + response.reason, articleUrl)
    ensures response.ParseFailed? ==>
      r == ArticleDetail(ParseErrorTitle, Unknown, Unknown, ParseErrorPrefix + response.reason, articleUrl)
  {
    match response
    case RequestFailed(e) =>
      ArticleDetail(LoadErrorTitle, Unknown, Unknown, LoadErrorPrefix + e, articleUrl)
    case ParseFailed(e) =>
      ArticleDetail(ParseErrorTitle, Unknown, Unknown, ParseErrorPrefix + e, articleUrl)
    case Downloaded(page) =>
      var body := BodyText(page, ContentSelectors);
      var content := if body == "" then ContentNotFound else body;
      ArticleDetail(
        TextOr(page.h1Title.Or(page.h1), TitleNotFound),
        TextOr(page.authorLink.Or(page.authorSpan), AuthorNotFound),
        TextOr(page.time.Or(page.datetimeSpan), DateNotFound),
        LimitContent(content),
        articleUrl)
  }

  /** Each metadata field falls back to its own sentinel exactly when both of
      its elements are missing, independently of the other fields. */
  lemma DetailSentinels(articleUrl: string, page: ArticlePage)
    ensures var d := GetFullArticleContent(articleUrl, Downloaded(page));
      && (page.h1Title.None? && page.h1.None? ==> d.title == TitleNotFound)
      && (page.h1Title.Some? ==> d.title == Text.Strip(page.h1Title.value))
      && (page.h1Title.None? && page.h1.Some? ==> d.title == Text.Strip(page.h1.value))
      && (page.authorLink.None? && page.authorSpan.None? ==> d.author == AuthorNotFound)
      && (page.authorLink.Some? ==> d.author == Text.Strip(page.authorLink.value))
      && (page.authorLink.None? && page.authorSpan.Some? ==> d.author == Text.Strip(page.authorSpan.value))
      && (page.time.None? && page.datetimeSpan.None? ==> d.date == DateNotFound)
      && (page.time.Some? ==> d.date == Text.Strip(page.time.value))
      && (page.time.None? && page.datetimeSpan.Some? ==> d.date == Text.Strip(page.datetimeSpan.value))
  {
  }

  /** Content handling: a body of up to 4000 characters is kept as it is, a
      longer one is cut to 4000 characters plus the marker, and no body (or an
      empty one) gives the "not found" sentinel. */
  lemma DetailContent(articleUrl: string, page: ArticlePage)
    ensures var body := BodyText(page, ContentSelectors);
      var d := GetFullArticleContent(articleUrl, Downloaded(page));
      && (body == "" ==> d.content == ContentNotFound)
      && (0 < |body| <= MaxContent ==> d.content == body)
      && (|body| > MaxContent ==> d.content == body[..MaxContent] + ContinuationMarker)
  {
  }
}

=== FILE: handlers.dfy ===
/** The message and callback handlers (src/bot/handlers/user_handlers.py and
    src/bot/handlers/callback_handlers.py) as transitions of the bot's
    process-wide state.

    Both handler modules import `articles` and `current_article_index` from
    src/bot/state.py. The list is one shared object, mutated in place; the
    index is an integer that each module rebinds with `global`, so each
    module ends up with a cursor of its own. `BotState` therefore holds one
    listing and two cursors: `replyCursor` (reply-keyboard navigation and
    /start) and `callbackCursor` (inline-button navigation). */
module Handlers {
  import opened Wrappers
  import Text
  import Markdown
  import K = Keyboards
  import P = HabrParser

  datatype BotState = BotState(articles: seq<P.ArticleSummary>, replyCursor: int, callbackCursor: int)

  /** The state at process start. */
  const Initial: BotState := BotState([], 0, 0)

  // ---------------------------------------------------------------------------
  // Texts
  // ---------------------------------------------------------------------------

  const Greeting: string :=
    "🤖 Добро пожаловать! Я показываю свежие статьи с Habr.\nОтправляю первую подходящую статью и клавиши навигации."
  const NoArticlesFound: string :=
    "Не удалось найти статьи. Попробуйте позже или откройте Habr: https://habr.com/ru/articles/"
  const NoArticlesLoaded: string := "Нет загруженных статей. Отправьте /start"
  const AtFirstArticle: string := "Вы уже на первой статье"
  const AtLastArticle: string := "Вы уже на последней статье"
  const ArticleNotFound: string := "Статья не найдена"

  // ---------------------------------------------------------------------------
  // What the handlers send
  // ---------------------------------------------------------------------------

  /** An article as sent or edited in: the MarkdownV2 caption, the photo when
      the article has a non-empty image URL, and the inline keyboard. */
  datatype ArticleMessage = ArticleMessage(caption: string, photo: Option<string>, keyboard: K.InlineKeyboard)

  /** A message the user-facing handlers send. `KeyboardWithoutText` is the
      last call of both handlers, `message.answer(reply_markup=...)` with no
      message text. aiogram's `Message.answer` takes the text as a required
      argument, so this call raises before anything reaches Telegram and
      ends the handler. The model records the attempt and its markup, and
      nothing after it depends on it. */
  datatype Reply =
    | Say(text: string)
    | ShowArticle(message: ArticleMessage)
    | KeyboardWithoutText(markup: K.ReplyKeyboard)

  datatype Step = Step(state: BotState, replies: seq<Reply>)

  /** The message for the article at index `i` of the listing. */
  function ArticleMessageAt(articles: seq<P.ArticleSummary>, i: int): (m: ArticleMessage)
    requires 0 <= i < |articles|
    ensures m.photo.Some? <==> Truthy(articles[i].imageUrl)
    ensures m.photo.Some? ==> m.photo == articles[i].imageUrl
    ensures m.keyboard == K.ArticleKeyboard(i, |articles|, Some(articles[i].link))
  {
    var a := articles[i];
    ArticleMessage(
      Markdown.BuildCaption(a.title, a.description),
      if Truthy(a.imageUrl) then a.imageUrl else None,
      K.ArticleKeyboard(i, |articles|, Some(a.link)))
  }

  /** The caption of an article message is the bold escaped title, a blank
      line, and the escaped description. */
  lemma ArticleCaption(articles: seq<P.ArticleSummary>, i: int)
    requires 0 <= i < |articles|
    ensures ArticleMessageAt(articles, i).caption
         == "*" + Markdown.EscapeRef(articles[i].title) + "*\n\n" + Markdown.EscapeRef(articles[i].description)
  {
    Markdown.CaptionLayout(articles[i].title, articles[i].description);
  }

  /** The article at the reply cursor, followed by the text-less call that
      would send the reply keyboard with `has_prev` always true and
      `has_next` true before the last article. */
  function ShowAt(s: BotState): seq<Reply>
    requires 0 <= s.replyCursor < |s.articles|
  {
    [ ShowArticle(ArticleMessageAt(s.articles, s.replyCursor)),
      KeyboardWithoutText(K.GetReplyKeyboard(true, s.replyCursor < |s.articles| - 1)) ]
  }

  // ---------------------------------------------------------------------------
  // The reply cursor
  // ---------------------------------------------------------------------------

  /** The reply cursor is never negative, and it indexes the listing
      whenever the listing is non-empty. On an empty listing it may hold any
      earlier value: a /start whose fetch raises empties the listing without
      resetting the cursor. */
  predicate ReplyInv(s: BotState) {
    0 <= s.replyCursor && (|s.articles| > 0 ==> s.replyCursor < |s.articles|)
  }

  /** `cmd_start`, with the fetch result as an input; None stands for
      `get_habr_articles` raising. It greets and empties the listing first.
      A fetch that raises ends the handler there: the listing stays empty
      and the reply cursor keeps its old value. Otherwise the listing becomes
      the fetched one, the reply cursor is reset to 0, and the first article
      is shown, or a not-found text. The inline-button cursor is a different
      variable and keeps its value either way. */
  function CmdStart(s: BotState, fetched: Option<seq<P.ArticleSummary>>): (r: Step)
    requires ReplyInv(s)
    ensures ReplyInv(r.state)
    ensures fetched.None? ==> r == Step(s.(articles := []), [Say(Greeting)])
    ensures fetched.Some? ==> r.state == s.(articles := fetched.value, replyCursor := 0)
    ensures fetched.Some? && |fetched.value| == 0 ==> r.replies == [Say(Greeting), Say(NoArticlesFound)]
    ensures fetched.Some? && |fetched.value| > 0 ==>
      r.replies == [Say(Greeting), ShowArticle(ArticleMessageAt(fetched.value, 0)),
                    KeyboardWithoutText(K.GetReplyKeyboard(true, |fetched.value| > 1))]
  {
    match fetched
    case None => Step(s.(articles := []), [Say(Greeting)])
    case Some(f) =>
      var s' := s.(articles := f, replyCursor := 0);
      if |f| > 0 then
        Step(s', [Say(Greeting), ShowArticle(ArticleMessageAt(f, 0)),
                  KeyboardWithoutText(K.GetReplyKeyboard(true, |f| > 1))])
      else Step(s', [Say(Greeting), Say(NoArticlesFound)])
  }

  datatype ReplyAction = Back | Forward

  /** The reply-message filter: only the two navigation texts are handled. */
  function ReplyActionOf(text: string): (r: Option<ReplyAction>)
    ensures r == Some(Back) <==> text == K.BackText
    ensures r == Some(Forward) <==> text == K.ForwardText
  {
    if text == K.BackText then Some(Back)
    else if text == K.ForwardText then Some(Forward)
    else None
  }

  /** Every button of the reply keyboard is a text the filter lets through. */
  lemma ReplyButtonsHandled(hasPrev: bool, hasNext: bool)
    ensures forall t :: t in K.GetReplyKeyboard(hasPrev, hasNext).keyboard[0] ==> ReplyActionOf(t).Some?
  {
  }

  /** `reply_nav`. With no articles it says so. "Back" at the first article
      and "Forward" at the last are refused with a notice. Otherwise the reply
      cursor moves one step and the article there is shown with the reply
      keyboard. The listing and the other cursor never change. */
  function ReplyNav(s: BotState, action: ReplyAction): (r: Step)
    requires ReplyInv(s)
    ensures ReplyInv(r.state)
    ensures r.state.articles == s.articles && r.state.callbackCursor == s.callbackCursor
    ensures |s.articles| == 0 ==> r == Step(s, [Say(NoArticlesLoaded)])
    ensures action == Back ==> r.state.replyCursor == s.replyCursor || r.state.replyCursor == s.replyCursor - 1
    ensures action == Forward ==> r.state.replyCursor == s.replyCursor || r.state.replyCursor == s.replyCursor + 1
    ensures r.state.replyCursor == s.replyCursor <==> |r.replies| == 1
    ensures |s.articles| > 0 && action == Back && s.replyCursor == 0 ==> r.replies == [Say(AtFirstArticle)]
    ensures |s.articles| > 0 && action == Back && s.replyCursor > 0 ==> r.state.replyCursor == s.replyCursor - 1
    ensures |s.articles| > 0 && action == Forward && s.replyCursor < |s.articles| - 1 ==>
      r.state.replyCursor == s.replyCursor + 1
    ensures |s.articles| > 0 && action == Forward && s.replyCursor == |s.articles| - 1 ==> r.replies == [Say(AtLastArticle)]
    ensures r.state.replyCursor != s.replyCursor ==>
      0 <= r.state.replyCursor < |s.articles| && r.replies == ShowAt(r.state)
  {
    if |s.articles| == 0 then Step(s, [Say(NoArticlesLoaded)])
    else
      match action
      case Back =>
        if s.replyCursor > 0 then
          var s' := s.(replyCursor := s.replyCursor - 1);
          Step(s', ShowAt(s'))
        else Step(s, [Say(AtFirstArticle)])
      case Forward =>
        if s.replyCursor < |s.articles| - 1 then
          var s' := s.(replyCursor := s.replyCursor + 1);
          Step(s', ShowAt(s'))
        else Step(s, [Say(AtLastArticle)])
  }

  // ---------------------------------------------------------------------------
  // Callback queries
  // ---------------------------------------------------------------------------

  const PaginatePrefix: string := "article_"

  datatype CallbackRoute = ToPaginate | ToFullContent | Unhandled

  /** Which callback handler a query reaches, by the prefix of its data. */
  function RouteCallback(data: string): CallbackRoute {
    if PaginatePrefix <= data then ToPaginate
    else if K.FullContentPrefix <= data then ToFullContent
    else Unhandled
  }

  /** Every callback button the article keyboard carries reaches a handler,
      except "read_more", which no handler takes. */
  lemma KeyboardCallbacksRouted(i: int)
    ensures RouteCallback(K.PrevData) == ToPaginate
    ensures RouteCallback(K.NextData) == ToPaginate
    ensures RouteCallback(K.FullContentData(i)) == ToFullContent
    ensures RouteCallback(K.ReadMoreData) == Unhandled
  {
    assert K.FullContentData(i)[0] == 'f' != PaginatePrefix[0];
    assert K.FullContentData(i)[..|K.FullContentPrefix|] == K.FullContentPrefix;
  }

  /** The second `_`-separated field of pagination data. */
  function PaginateAction(data: string): (r: string)
    requires PaginatePrefix <= data
    ensures r == Text.Split(data[|PaginatePrefix|..], '_')[0]
    ensures '_' !in r
  {
    assert data == "article" + ['_'] + data[|PaginatePrefix|..];
    Text.SplitCons("article", data[|PaginatePrefix|..], '_');
    Text.Split(data, '_')[1]
  }

  /** How far an action moves the inline-button cursor. */
  function CursorDelta(action: string): (d: int)
    ensures d == 1 <==> action == "next"
    ensures d == -1 <==> action == "prev"
    ensures d == 0 <==> action != "next" && action != "prev"
  {
    if action == "next" then 1 else if action == "prev" then -1 else 0
  }

  /** How the shown message is updated, by whether it carries a photo now and
      whether the target article has an image. `AnswerPhotoThenDelete` sends
      a new photo message and then deletes the old one, ignoring a failure
      of that deletion. */
  datatype RenderKind = EditMedia | EditCaption | AnswerPhotoThenDelete | EditText

  function RenderChoice(hasPhotoMessage: bool, targetHasImage: bool): (k: RenderKind)
    ensures k == EditMedia <==> hasPhotoMessage && targetHasImage
    ensures k == EditCaption <==> hasPhotoMessage && !targetHasImage
    ensures k == AnswerPhotoThenDelete <==> !hasPhotoMessage && targetHasImage
    ensures k == EditText <==> !hasPhotoMessage && !targetHasImage
  {
    if hasPhotoMessage then (if targetHasImage then EditMedia else EditCaption)
    else if targetHasImage then AnswerPhotoThenDelete else EditText
  }

  datatype Render = Render(kind: RenderKind, message: ArticleMessage)

  datatype PaginateResult = PaginateResult(state: BotState, render: Option<Render>)

  /** `paginate_articles`: moves the inline-button cursor first and checks
      bounds afterwards, never clamping. An out-of-range cursor renders
      nothing and stays where it is. */
  function Paginate(s: BotState, data: string, hasPhotoMessage: bool): (r: PaginateResult)
    requires PaginatePrefix <= data
    ensures r.state == s.(callbackCursor := s.callbackCursor + CursorDelta(PaginateAction(data)))
    ensures r.render.Some? <==> 0 <= r.state.callbackCursor < |s.articles|
    ensures r.render.Some? ==>
      r.render.value.message == ArticleMessageAt(s.articles, r.state.callbackCursor)
      && r.render.value.kind == RenderChoice(hasPhotoMessage, Truthy(s.articles[r.state.callbackCursor].imageUrl))
  {
    var i := s.callbackCursor + CursorDelta(PaginateAction(data));
    var s' := s.(callbackCursor := i);
    if 0 <= i < |s.articles| then
      var m := ArticleMessageAt(s.articles, i);
      PaginateResult(s', Some(Render(RenderChoice(hasPhotoMessage, m.photo.Some?), m)))
    else PaginateResult(s', None)
  }

  /** The action of pagination data is whatever follows the prefix, up to
      the next underscore. */
  lemma PaginateActionOf(action: string)
    requires '_' !in action
    ensures PaginatePrefix <= PaginatePrefix + action
    ensures PaginateAction(PaginatePrefix + action) == action
  {
    var data := PaginatePrefix + action;
    assert data[|PaginatePrefix|..] == action;
    assert data == "article" + ['_'] + action;
    Text.SplitCons("article", action, '_');
    Text.SplitNoSep(action, '_');
  }

  /** The data of the inline Back and Forward buttons move the cursor by
      exactly one step each. */
  lemma NavigationButtonsStep()
    ensures PaginatePrefix <= K.PrevData && CursorDelta(PaginateAction(K.PrevData)) == -1
    ensures PaginatePrefix <= K.NextData && CursorDelta(PaginateAction(K.NextData)) == 1
  {
    PrevButtonStep();
    NextButtonStep();
  }

  lemma PrevButtonStep()
    ensures PaginatePrefix <= K.PrevData && CursorDelta(PaginateAction(K.PrevData)) == -1
  {
    assert K.PrevData == PaginatePrefix + "prev";
    PaginateActionOf("prev");
  }

  lemma NextButtonStep()
    ensures PaginatePrefix <= K.NextData && CursorDelta(PaginateAction(K.NextData)) == 1
  {
    assert K.NextData == PaginatePrefix + "next";
    PaginateActionOf("next");
  }

  /** The full-text callback after parsing its data. */
  datatype FullContentStep =
    | Fetch(url: string)        // fetch and send the article at this link
    | NotFound                  // index out of range: alert "Статья не найдена"
    | LoadFailed                // `int()` failed: alert with the error

  /** `show_full_content` up to the fetch: the third `_`-field of the data as
      an integer index into the listing. */
  function FullContentRequest(articles: seq<P.ArticleSummary>, data: string): (r: FullContentStep)
    requires K.FullContentPrefix <= data
    ensures var index := Text.ParseInt(Text.Split(data[|K.FullContentPrefix|..], '_')[0]);
      && (r == LoadFailed <==> index.None?)
      && (r.Fetch? <==> index.Some? && 0 <= index.value < |articles|)
      && (r.Fetch? ==> r.url == articles[index.value].link)
  {
    var rest := data[|K.FullContentPrefix|..];
    assert data == "full" + ['_'] + ("content" + ['_'] + rest);
    Text.SplitCons("full", "content" + ['_'] + rest, '_');
    Text.SplitCons("content", rest, '_');
    var index := Text.ParseInt(Text.Split(data, '_')[2]);
    if index.None? then LoadFailed
    else if 0 <= index.value < |articles| then Fetch(articles[index.value].link)
    else NotFound
  }

  /** The full-text button's data round-trips: parsing `full_content_{i}`
      gives back `i`, so the button fetches article `i` when it is in the
      listing and reports "not found" otherwise. */
  lemma FullContentDataRoundTrip(articles: seq<P.ArticleSummary>, i: int)
    ensures K.FullContentPrefix <= K.FullContentData(i)
    ensures 0 <= i < |articles| ==> FullContentRequest(articles, K.FullContentData(i)) == Fetch(articles[i].link)
    ensures !(0 <= i < |articles|) ==> FullContentRequest(articles, K.FullContentData(i)) == NotFound
  {
    var data := K.FullContentData(i);
    var digits := Text.IntToString(i);
    assert data[|K.FullContentPrefix|..] == digits;
    assert data == "full" + ['_'] + ("content" + ['_'] + digits);
    Text.SplitCons("full", "content" + ['_'] + digits, '_');
    Text.SplitCons("content", digits, '_');
    Text.SplitNoSep(digits, '_');
    Text.ParseIntString(i);
  }

  const TitleOpen: string := "📖 *"
  const AuthorLabel: string := "*\n\n👤 Автор: "
  const DateLabel: string := "\n📅 Дата: "
  const LinkOpen: string := "\n\n🔗 [Читать на Habr]("

  /** The title, author and date lines of the full-text message. */
  function FullContentHead(d: P.ArticleDetail): string {
    TitleOpen + d.title + AuthorLabel + d.author + DateLabel + d.date + "\n\n"
  }

  /** The link line that closes the full-text message. */
  function FullContentTail(articleUrl: string): string {
    LinkOpen + articleUrl + ")"
  }

  /** The full-text message: title line, author line, date line, content,
      then the link, with every field interpolated as it is. */
  function FullContentMessage(d: P.ArticleDetail, articleUrl: string): (m: string)
    ensures |m| == |TitleOpen| + |d.title| + |AuthorLabel| + |d.author| + |DateLabel| + |d.date| + 2
                   + |d.content| + |LinkOpen| + |articleUrl| + 1
    ensures m[..|TitleOpen|] == TitleOpen && m[|m| - 1] == ')'
  {
    FullContentHead(d) + d.content + FullContentTail(articleUrl)
  }

  lemma Slices3<T>(x: seq<T>, y: seq<T>, z: seq<T>)
    ensures (x + y + z)[..|x|] == x
    ensures (x + y + z)[|x|..|x| + |y|] == y
    ensures (x + y + z)[|x| + |y|..] == z
  {
  }

  /** Where each field sits in the full-text message: title, author, date,
      content and link, in that order. No field is escaped: the title and the
      content appear verbatim, so a title holding a MarkdownV2 reserved
      character puts it in the message unescaped. */
  lemma FullContentLayout(d: P.ArticleDetail, articleUrl: string)
    ensures var m := FullContentMessage(d, articleUrl);
      var contentAt := |TitleOpen| + |d.title| + |AuthorLabel| + |d.author| + |DateLabel| + |d.date| + 2;
      var authorAt := |TitleOpen| + |d.title| + |AuthorLabel|;
      var dateAt := authorAt + |d.author| + |DateLabel|;
      && m[..|TitleOpen| + |d.title|] == TitleOpen + d.title
      && m[authorAt..authorAt + |d.author|] == d.author
      && m[dateAt..dateAt + |d.date|] == d.date
      && m[contentAt..contentAt + |d.content|] == d.content
      && m[|m| - |articleUrl| - 1..] == articleUrl + ")"
  {
    var m := FullContentMessage(d, articleUrl);
    var head := FullContentHead(d);
    var tail := FullContentTail(articleUrl);
    Slices3(head, d.content, tail);
    HeadStartsWithTitle(d);
    HeadCarriesAuthorAndDate(d);
    TailEndsWithUrl(articleUrl);
    assert m[..|TitleOpen| + |d.title|] == head[..|TitleOpen| + |d.title|];
    var authorAt := |TitleOpen| + |d.title| + |AuthorLabel|;
    var dateAt := authorAt + |d.author| + |DateLabel|;
    assert m[authorAt..authorAt + |d.author|] == head[authorAt..authorAt + |d.author|];
    assert m[dateAt..dateAt + |d.date|] == head[dateAt..dateAt + |d.date|];
    assert m[|m| - |articleUrl| - 1..] == tail[|LinkOpen|..];
  }

  lemma HeadStartsWithTitle(d: P.ArticleDetail)
    ensures |FullContentHead(d)| == |TitleOpen| + |d.title| + |AuthorLabel| + |d.author| + |DateLabel| + |d.date| + 2
    ensures FullContentHead(d)[..|TitleOpen| + |d.title|] == TitleOpen + d.title
  {
    var t := TitleOpen + d.title;
    var meta := AuthorLabel + d.author + DateLabel + d.date + "\n\n";
    assert FullContentHead(d) == t + meta;
    Slices3(t, meta, []);
  }

  /** The author line comes before the date line in the head. */
  lemma HeadCarriesAuthorAndDate(d: P.ArticleDetail)
    ensures var authorAt := |TitleOpen| + |d.title| + |AuthorLabel|;
      var dateAt := authorAt + |d.author| + |DateLabel|;
      && dateAt + |d.date| <= |FullContentHead(d)|
      && FullContentHead(d)[authorAt..authorAt + |d.author|] == d.author
      && FullContentHead(d)[dateAt..dateAt + |d.date|] == d.date
  {
    var head := FullContentHead(d);
    var beforeAuthor := TitleOpen + d.title + AuthorLabel;
    var afterAuthor := DateLabel + d.date + "\n\n";
    assert head == beforeAuthor + d.author + afterAuthor;
    Slices3(beforeAuthor, d.author, afterAuthor);
    var beforeDate := beforeAuthor + d.author + DateLabel;
    assert head == beforeDate + d.date + "\n\n";
    Slices3(beforeDate, d.date, "\n\n");
  }

  lemma TailEndsWithUrl(articleUrl: string)
    ensures FullContentTail(articleUrl)[|LinkOpen|..] == articleUrl + ")"
  {
    assert FullContentTail(articleUrl) == LinkOpen + (articleUrl + ")");
    Slices3(LinkOpen, articleUrl + ")", []);
  }

  const LoadErrorAlertPrefix: string := "Ошибка загрузки: "

  /** What `show_full_content` ends with: a MarkdownV2 message, or an alert. */
  datatype FullContentOutcome = SendMarkdown(text: string) | Alert(text: string)

  /** `show_full_content`, with the article download as an input and the
      text of the `ValueError` that `int()` raises on bad data as another. The
      article's own link is what is fetched and what the message links to. */
  function ShowFullContent(articles: seq<P.ArticleSummary>, data: string, response: P.ArticleResponse,
                           valueErrorText: string): (r: FullContentOutcome)
    requires K.FullContentPrefix <= data
    ensures FullContentRequest(articles, data) == NotFound ==> r == Alert(ArticleNotFound)
    ensures FullContentRequest(articles, data) == LoadFailed ==> r == Alert(LoadErrorAlertPrefix + valueErrorText)
    ensures FullContentRequest(articles, data).Fetch? <==> r.SendMarkdown?
    ensures FullContentRequest(articles, data).Fetch? ==>
      var url := FullContentRequest(articles, data).url;
      r.text == FullContentMessage(P.GetFullArticleContent(url, response), url)
  {
    match FullContentRequest(articles, data)
    case Fetch(url) => SendMarkdown(FullContentMessage(P.GetFullArticleContent(url, response), url))
    case NotFound => Alert(ArticleNotFound)
    case LoadFailed => Alert(LoadErrorAlertPrefix + valueErrorText)
  }

  // ---------------------------------------------------------------------------
  // Runs of events
  // ---------------------------------------------------------------------------

  /** What reaches the bot: the /start command with what its fetch gave, any
      other text message, or a callback query on a message with or without a
      photo. `Start` is the only way /start arrives: the command filter takes
      it before the text filter sees it, so a `Message` never holds it. */
  datatype Event =
    | Start(fetched: Option<seq<P.ArticleSummary>>)
    | Message(text: string)
    | CallbackQuery(data: string, hasPhotoMessage: bool)

  /** The state after one event. The full-text callback and unhandled input
      leave the state as it is. */
  function Apply(s: BotState, e: Event): (r: BotState)
    requires ReplyInv(s)
    ensures ReplyInv(r)
  {
    match e
    case Start(fetched) => CmdStart(s, fetched).state
    case Message(text) =>
      var action := ReplyActionOf(text);
      if action.Some? then ReplyNav(s, action.value).state else s
    case CallbackQuery(data, hasPhoto) =>
      if RouteCallback(data) == ToPaginate then Paginate(s, data, hasPhoto).state else s
  }

  function Run(s: BotState, events: seq<Event>): BotState
    requires ReplyInv(s)
    decreases |events|
  {
    if |events| == 0 then s else Run(Apply(s, events[0]), events[1..])
  }

  /** From any state satisfying `ReplyInv`, on any sequence of events, the
      reply cursor stays non-negative and inside any non-empty listing. */
  lemma {:induction false} ReplyCursorAlwaysInRange(s: BotState, events: seq<Event>)
    requires ReplyInv(s)
    ensures ReplyInv(Run(s, events))
    decreases |events|
  {
    if |events| > 0 {
      ReplyCursorAlwaysInRange(Apply(s, events[0]), events[1..]);
    }
  }

  /** The inline-button cursor has no such invariant: "Back" on the first
      article leaves it at -1 with nothing shown, and only "Forward" brings
      it back. */
  lemma CallbackCursorLeavesRange(a: P.ArticleSummary)
    ensures var s := BotState([a], 0, 0);
      var r1 := Paginate(s, K.PrevData, false);
      && r1.state.callbackCursor == -1 && r1.render.None?
      && Paginate(r1.state, K.NextData, false).state.callbackCursor == 0
      && Paginate(r1.state, K.NextData, false).render.Some?
  {
    NavigationButtonsStep();
  }

  /** /start with two articles, then a reply "Forward". */
  lemma StartThenForward(a: P.ArticleSummary, b: P.ArticleSummary)
    ensures Run(Initial, [Start(Some([a, b])), Message(K.ForwardText)]) == BotState([a, b], 1, 0)
  {
    var s1 := Apply(Initial, Start(Some([a, b])));
    StartFromInitial([a, b]);
    assert ReplyActionOf(K.ForwardText) == Some(Forward);
    var s2 := Apply(s1, Message(K.ForwardText));
    assert s2 == ReplyNav(s1, Forward).state;
    ForwardFromFirst(a, b);
    var es := [Start(Some([a, b])), Message(K.ForwardText)];
    assert es[1..] == [Message(K.ForwardText)];
    assert Run(Initial, es) == Run(s1, [Message(K.ForwardText)]);
    assert [Message(K.ForwardText)][1..] == [];
    assert Run(s1, [Message(K.ForwardText)]) == Run(s2, []);
  }

  lemma StartFromInitial(fetched: seq<P.ArticleSummary>)
    ensures Apply(Initial, Start(Some(fetched))) == BotState(fetched, 0, 0)
  {
    assert Apply(Initial, Start(Some(fetched))) == CmdStart(Initial, Some(fetched)).state;
  }

  /** A /start whose fetch raises leaves the listing empty and the reply
      cursor where it was; reply navigation then only asks for /start, and
      a later successful /start puts the cursor back at 0. */
  lemma FailedStartKeepsCursor(s: BotState, later: seq<P.ArticleSummary>)
    requires ReplyInv(s)
    ensures Apply(s, Start(None)) == s.(articles := [])
    ensures ReplyNav(s.(articles := []), Back).replies == [Say(NoArticlesLoaded)]
    ensures ReplyNav(s.(articles := []), Forward).replies == [Say(NoArticlesLoaded)]
    ensures Apply(s.(articles := []), Start(Some(later))).replyCursor == 0
  {
    assert Apply(s, Start(None)) == CmdStart(s, None).state;
    assert Apply(s.(articles := []), Start(Some(later))) == CmdStart(s.(articles := []), Some(later)).state;
  }

  lemma ForwardFromFirst(a: P.ArticleSummary, b: P.ArticleSummary)
    ensures ReplyNav(BotState([a, b], 0, 0), Forward).state == BotState([a, b], 1, 0)
  {
    var s := BotState([a, b], 0, 0);
    assert s.replyCursor < |s.articles| - 1;
  }

  /** The two cursors drift apart. `StartThenForward` reaches the state
      with the reply cursor at 1 and the inline cursor at 0; there the
      article keyboard on screen is for index 1 and carries "Back", yet that
      "Back" moves the inline cursor from 0 to -1 and shows nothing, instead
      of showing article 0. */
  lemma CursorsDiverge(a: P.ArticleSummary, b: P.ArticleSummary)
    ensures K.BackButton in K.ArticleKeyboard(1, 2, Some(b.link))[0]
    ensures Paginate(BotState([a, b], 1, 0), K.PrevData, false).state.callbackCursor == -1
    ensures Paginate(BotState([a, b], 1, 0), K.PrevData, false).render.None?
  {
    NavigationButtonsStep();
  }
}

=== FILE: keyboards.dfy ===
/** The two keyboards the bot attaches to its messages
    (src/bot/keyboards/inline.py and src/bot/keyboards/reply.py), as plain
    button data. */
module Keyboards {
  import opened Wrappers
  import Text

  // ---------------------------------------------------------------------------
  // Button texts and callback data
  // ---------------------------------------------------------------------------

  const BackText: string := "⬅️ Назад"
  const ForwardText: string := "Вперед ➡️"
  const ReadText: string := "Читать"
  const FullContentText: string := "📖 Полный текст"

  const PrevData: string := "article_prev"
  const NextData: string := "article_next"
  const ReadMoreData: string := "read_more"
  const FullContentPrefix: string := "full_content_"

  // ---------------------------------------------------------------------------
  // Inline keyboard under an article
  // ---------------------------------------------------------------------------

  /** What pressing an inline button does: send callback data, or open a URL. */
  datatype ButtonAction = Callback(data: string) | Url(url: string)

  datatype InlineButton = InlineButton(text: string, action: ButtonAction)

  /** Rows of buttons, top to bottom. */
  type InlineKeyboard = seq<seq<InlineButton>>

  const BackButton: InlineButton := InlineButton(BackText, Callback(PrevData))
  const ForwardButton: InlineButton := InlineButton(ForwardText, Callback(NextData))

  /** "Читать" opens the article when there is a non-empty URL, and otherwise
      sends "read_more". */
  function ReadButton(articleUrl: Option<string>): (b: InlineButton)
    ensures b.text == ReadText
    ensures b.action.Url? <==> Truthy(articleUrl)
    ensures b.action.Url? ==> b.action.url == articleUrl.value
    ensures b.action.Callback? ==> b.action.data == ReadMoreData
  {
    if Truthy(articleUrl) then InlineButton(ReadText, Url(articleUrl.value))
    else InlineButton(ReadText, Callback(ReadMoreData))
  }

  /** The callback data of the full-text button: `f"full_content_{i}"`. */
  function FullContentData(i: int): string {
    FullContentPrefix + Text.IntToString(i)
  }

  function FullContentButton(i: int): InlineButton {
    InlineButton(FullContentText, Callback(FullContentData(i)))
  }

  function BoolToNat(b: bool): nat {
    if b then 1 else 0
  }

  /** `get_article_keyboard`: two rows. The first is Back (only past the first
      article), Read (always), Forward (only before the last article), in that
      order; the second is the single full-text button for this index. */
  function ArticleKeyboard(currentIndex: int, totalArticles: int, articleUrl: Option<string>): (r: InlineKeyboard)
    ensures |r| == 2
    ensures |r[0]| == 1 + BoolToNat(currentIndex > 0) + BoolToNat(currentIndex < totalArticles - 1)
    ensures 1 <= |r[0]| <= 3
    ensures BackButton in r[0] <==> currentIndex > 0
    ensures ForwardButton in r[0] <==> currentIndex < totalArticles - 1
    ensures currentIndex > 0 ==> r[0][0] == BackButton
    ensures r[0][BoolToNat(currentIndex > 0)] == ReadButton(articleUrl)
    ensures currentIndex < totalArticles - 1 ==> r[0][|r[0]| - 1] == ForwardButton
    ensures forall i :: 0 <= i < |r[0]| && r[0][i].text == ReadText ==> i == BoolToNat(currentIndex > 0)
    ensures r[1] == [FullContentButton(currentIndex)]
  {
    var back := if currentIndex > 0 then [BackButton] else [];
    var forward := if currentIndex < totalArticles - 1 then [ForwardButton] else [];
    var row1 := back + [ReadButton(articleUrl)] + forward;
    assert ReadButton(articleUrl) != BackButton && ReadButton(articleUrl) != ForwardButton;
    [row1, [FullContentButton(currentIndex)]]
  }

  // ---------------------------------------------------------------------------
  // Reply keyboard
  // ---------------------------------------------------------------------------

  /** The reply keyboard markup: its rows of button texts and fixed options. */
  datatype ReplyKeyboard = ReplyKeyboard(
    keyboard: seq<seq<string>>,
    resizeKeyboard: bool,
    oneTimeKeyboard: bool,
    selective: bool,
    inputFieldPlaceholder: string)

  const Placeholder: string := "Выберите действие"

  /** `get_reply_keyboard`: one row, Back first and always, Forward after it
      only when `hasNext`. `hasPrev` is ignored. */
  function GetReplyKeyboard(hasPrev: bool, hasNext: bool): (r: ReplyKeyboard)
    ensures |r.keyboard| == 1
    ensures |r.keyboard[0]| == 1 + BoolToNat(hasNext)
    ensures r.keyboard[0][0] == BackText
    ensures ForwardText in r.keyboard[0] <==> hasNext
    ensures r.resizeKeyboard && !r.oneTimeKeyboard && !r.selective
    ensures r.inputFieldPlaceholder == Placeholder
  {
    var row := [BackText] + (if hasNext then [ForwardText] else []);
    ReplyKeyboard([row], true, false, false, Placeholder)
  }

  /** The reply keyboard depends on `hasNext` alone. */
  lemma ReplyKeyboardIgnoresHasPrev(hasNext: bool)
    ensures GetReplyKeyboard(false, hasNext) == GetReplyKeyboard(true, hasNext)
  {
  }
}

=== FILE: ledger.dfy ===
/** The per-user ledger of sent full-text message ids (src/bot/state.py):
    `user_full_text_messages`, a map from user id to the ids in the order
    they were recorded, with its three operations. */
module Ledger {

  type UserId = int
  type MsgId = int
  type Ledger = map<UserId, seq<MsgId>>

  /** The ledger at process start: no user has an entry. */
  const Empty: Ledger := map[]

  /** `get_user_messages`: the user's ids, or [] for a user without an entry.
      Being a pure read, it never creates the entry. */
  function GetUserMessages(l: Ledger, u: UserId): (r: seq<MsgId>)
    ensures u in l ==> r == l[u]
    ensures u !in l ==> r == []
  {
    if u in l then l[u] else []
  }

  /** `add_user_message`: appends `m` at the end of the user's list, creating
      the list when absent; nobody else's entry changes. */
  function AddUserMessage(l: Ledger, u: UserId, m: MsgId): (r: Ledger)
    ensures r.Keys == l.Keys + {u}
    ensures r[u] == GetUserMessages(l, u) + [m]
    ensures forall v :: v in l && v != u ==> v in r && r[v] == l[v]
  {
    l[u := GetUserMessages(l, u) + [m]]
  }

  /** One `bot.delete_message(user_id, msg_id)` call and whether it succeeded. */
  datatype DeleteAttempt = DeleteAttempt(chat: UserId, msg: MsgId, succeeded: bool)

  /** `clear_user_messages`. The outcome of the i-th deletion call is the
      oracle `deleteOk(i)`: a failed call is reported and skipped. When the
      user's list is non-empty, every id is attempted in order (only when a
      bot is given) and the list then becomes [] (with or without a bot). An
      absent or empty entry is left as it is, and other users never change. */
  method ClearUserMessages(l: Ledger, u: UserId, hasBot: bool, deleteOk: nat -> bool)
    returns (r: Ledger, attempts: seq<DeleteAttempt>)
    ensures u in l && |l[u]| > 0 ==> r == l[u := []]
    ensures !(u in l && |l[u]| > 0) ==> r == l && attempts == []
    ensures hasBot && u in l ==> |attempts| == |l[u]|
    ensures hasBot && u in l ==>
      forall i :: 0 <= i < |attempts| ==> attempts[i] == DeleteAttempt(u, l[u][i], deleteOk(i))
    ensures !hasBot ==> attempts == []
  {
    attempts := [];
    r := l;
    if u in l && |l[u]| > 0 {
      if hasBot {
        var ids := l[u];
        var i := 0;
        while i < |ids|
          invariant 0 <= i <= |ids|
          invariant |attempts| == i
          invariant forall k :: 0 <= k < i ==> attempts[k] == DeleteAttempt(u, ids[k], deleteOk(k))
        {
          // A failed deletion is only reported; the loop goes on either way.
          attempts := attempts + [DeleteAttempt(u, ids[i], deleteOk(i))];
          i := i + 1;
        }
      }
      r := l[u := []];
    }
  }

  /** Recording ids one after the other keeps them in recording order after
      those already there. */
  lemma {:induction false} AddAllInOrder(l: Ledger, u: UserId, ms: seq<MsgId>)
    ensures GetUserMessages(AddAll(l, u, ms), u) == GetUserMessages(l, u) + ms
    ensures forall v :: v != u ==> GetUserMessages(AddAll(l, u, ms), v) == GetUserMessages(l, v)
    decreases |ms|
  {
    if |ms| > 0 {
      var l' := AddUserMessage(l, u, ms[0]);
      AddAllInOrder(l', u, ms[1..]);
      assert GetUserMessages(l, u) + [ms[0]] + ms[1..] == GetUserMessages(l, u) + ms;
    }
  }

  /** `add_user_message` applied to each id of `ms` in turn. */
  function AddAll(l: Ledger, u: UserId, ms: seq<MsgId>): Ledger
    decreases |ms|
  {
    if |ms| == 0 then l else AddAll(AddUserMessage(l, u, ms[0]), u, ms[1..])
  }
}

=== FILE: markdown.dfy ===
/** The Telegram MarkdownV2 escaper and the article caption built from it
    (src/bot/handlers/user_handlers.py).

    The source escapes by running one `str.replace(ch, "\\" + ch)` pass per
    reserved character. `EscapeMarkdownV2` is that sequential definition; the
    per-character reference `EscapeRef` says what it means, and
    `EscapeIsCharMap` proves the two agree. */
module Markdown {
  import opened Wrappers

  const Backslash: char := '\\'

  /** The 18 characters escaped, in the order the source replaces them. */
  const Specials: seq<char> :=
    ['_', '*', '[', ']', '(', ')', '~', '`', '>', '#', '+', '-', '=', '|', '{', '}', '.', '!']

  predicate IsSpecial(c: char) {
    c in SpecialSet
  }

  /** The reserved characters are pairwise distinct and do not include the
      escape marker itself. */
  lemma SpecialsWellFormed()
    ensures |Specials| == 18
    ensures forall i, j :: 0 <= i < j < |Specials| ==> Specials[i] != Specials[j]
    ensures Backslash !in Specials
    ensures (set c | c in Specials) == SpecialSet
  {
  }

  // ---------------------------------------------------------------------------
  // The source's definition: one replace pass per reserved character
  // ---------------------------------------------------------------------------

  /** Python's `s.replace(c, rep)` for a one-character pattern. */
  function ReplaceChar(s: string, c: char, rep: string): (r: string)
    ensures |rep| >= 1 ==> |r| >= |s|
  {
    if |s| == 0 then "" else (if s[0] == c then rep else [s[0]]) + ReplaceChar(s[1..], c, rep)
  }

  /** `for ch in cs: s = s.replace(ch, "\\" + ch)`. */
  function ReplaceEach(s: string, cs: seq<char>): (r: string)
    ensures |r| >= |s|
    decreases |cs|
  {
    if |cs| == 0 then s else ReplaceEach(ReplaceChar(s, cs[0], [Backslash, cs[0]]), cs[1..])
  }

  /** `escape_markdown_v2`: None and "" give "", anything else goes through
      the replace passes. */
  function EscapeMarkdownV2(text: Option<string>): (r: string)
    ensures r == "" <==> text.None? || text.value == ""
    ensures |r| >= |text.GetOr("")|
  {
    if text.None? || |text.value| == 0 then "" else ReplaceEach(text.value, Specials)
  }

  // ---------------------------------------------------------------------------
  // The reference: a per-character map
  // ---------------------------------------------------------------------------

  /** Escapes the characters of `d` and keeps every other character. */
  function EscapeCharIn(c: char, d: set<char>): string {
    if c in d then [Backslash, c] else [c]
  }

  function EscapeIn(s: string, d: set<char>): string {
    if |s| == 0 then "" else EscapeCharIn(s[0], d) + EscapeIn(s[1..], d)
  }

  const SpecialSet: set<char> :=
    {'_', '*', '[', ']', '(', ')', '~', '`', '>', '#', '+', '-', '=', '|', '{', '}', '.', '!'}

  /** Each reserved character becomes backslash + character; everything else,
      the backslash included, is kept in order. */
  function EscapeRef(s: string): string {
    EscapeIn(s, SpecialSet)
  }

  /** The number of reserved characters in `s`. */
  function CountSpecials(s: string): nat {
    if |s| == 0 then 0 else (if IsSpecial(s[0]) then 1 else 0) + CountSpecials(s[1..])
  }

  // ---------------------------------------------------------------------------
  // The sequential replace equals the per-character map
  // ---------------------------------------------------------------------------

  lemma {:induction false} ReplaceCharAppend(a: string, b: string, c: char, rep: string)
    ensures ReplaceChar(a + b, c, rep) == ReplaceChar(a, c, rep) + ReplaceChar(b, c, rep)
  {
    if |a| > 0 {
      ReplaceCharAppend(a[1..], b, c, rep);
      assert (a + b)[1..] == a[1..] + b;
    } else {
      assert a + b == b;
    }
  }

  /** One replace pass on text already escaped for `d` extends the escaped set
      by `c`, because `c` is new and is not the escape marker. */
  lemma {:induction false} ReplaceStep(s: string, d: set<char>, c: char)
    requires c !in d && c != Backslash
    ensures ReplaceChar(EscapeIn(s, d), c, [Backslash, c]) == EscapeIn(s, d + {c})
  {
    if |s| > 0 {
      var head := EscapeCharIn(s[0], d);
      ReplaceCharAppend(head, EscapeIn(s[1..], d), c, [Backslash, c]);
      ReplaceStep(s[1..], d, c);
      if s[0] in d {
        assert ReplaceChar(head, c, [Backslash, c]) == [Backslash] + ReplaceChar([s[0]], c, [Backslash, c]);
      }
    }
  }

  lemma {:induction false} EscapeInEmpty(s: string)
    ensures EscapeIn(s, {}) == s
  {
    if |s| > 0 {
      EscapeInEmpty(s[1..]);
      assert [s[0]] + s[1..] == s;
    }
  }

  lemma {:induction false} ReplaceEachIsEscapeIn(s: string, d: set<char>, cs: seq<char>)
    requires forall i, j :: 0 <= i < j < |cs| ==> cs[i] != cs[j]
    requires forall i :: 0 <= i < |cs| ==> cs[i] !in d && cs[i] != Backslash
    ensures ReplaceEach(EscapeIn(s, d), cs) == EscapeIn(s, d + set c | c in cs)
    decreases |cs|
  {
    if |cs| == 0 {
      assert d + (set c | c in cs) == d;
    } else {
      ReplaceStep(s, d, cs[0]);
      assert forall i :: 0 <= i < |cs[1..]| ==> cs[1..][i] == cs[i + 1];
      ReplaceEachIsEscapeIn(s, d + {cs[0]}, cs[1..]);
      assert (d + {cs[0]}) + (set c | c in cs[1..]) == d + set c | c in cs;
    }
  }

  /** Replace passes over distinct, non-backslash characters escape exactly
      the set of those characters. */
  lemma ReplaceEachFromPlain(s: string, cs: seq<char>, d: set<char>)
    requires forall i, j :: 0 <= i < j < |cs| ==> cs[i] != cs[j]
    requires Backslash !in cs
    requires d == set c | c in cs
    ensures ReplaceEach(s, cs) == EscapeIn(s, d)
  {
    EscapeInEmpty(s);
    ReplaceEachIsEscapeIn(s, {}, cs);
    assert {} + d == d;
  }

  /** The main escaping theorem: the 18 sequential replace passes compute the
      per-character map, and a missing text escapes to "". */
  lemma EscapeIsCharMap(text: Option<string>)
    ensures EscapeMarkdownV2(text) == EscapeRef(text.GetOr(""))
    ensures text.None? ==> EscapeMarkdownV2(text) == ""
  {
    if text.Some? && |text.value| > 0 {
      SpecialsWellFormed();
      ReplaceEachFromPlain(text.value, Specials, SpecialSet);
    }
  }

  // ---------------------------------------------------------------------------
  // Consequences of the per-character map
  // ---------------------------------------------------------------------------

  lemma {:induction false} EscapeRefAppend(a: string, b: string)
    ensures EscapeRef(a + b) == EscapeRef(a) + EscapeRef(b)
  {
    if |a| > 0 {
      EscapeRefAppend(a[1..], b);
      assert (a + b)[1..] == a[1..] + b;
    } else {
      assert a + b == b;
    }
  }

  /** Escaping adds exactly one character per reserved character. */
  lemma {:induction false} EscapeLength(s: string)
    ensures |EscapeRef(s)| == |s| + CountSpecials(s)
  {
    if |s| > 0 {
      EscapeLength(s[1..]);
    }
  }

  /** Text without reserved characters is returned unchanged. */
  lemma {:induction false} EscapeNoSpecials(s: string)
    requires CountSpecials(s) == 0
    ensures EscapeRef(s) == s
  {
    if |s| > 0 {
      EscapeNoSpecials(s[1..]);
      assert [s[0]] + s[1..] == s;
    }
  }

  /** Drops the backslash in front of every reserved character, scanning left
      to right; any other character, a lone backslash included, is kept. */
  function Unescape(t: string): string {
    if |t| == 0 then ""
    else if |t| >= 2 && t[0] == Backslash && IsSpecial(t[1]) then [t[1]] + Unescape(t[2..])
    else [t[0]] + Unescape(t[1..])
  }

  /** Escaped text never starts with a reserved character. */
  lemma EscapedHeadNotSpecial(s: string)
    requires |s| > 0
    ensures |EscapeRef(s)| > 0 && !IsSpecial(EscapeRef(s)[0])
  {
  }

  /** Unescaping recovers the original text. */
  lemma {:induction false} UnescapeEscape(s: string)
    ensures Unescape(EscapeRef(s)) == s
  {
    if |s| > 0 {
      var rest := EscapeRef(s[1..]);
      UnescapeEscape(s[1..]);
      var t := EscapeRef(s);
      assert t == EscapeCharIn(s[0], SpecialSet) + rest;
      if IsSpecial(s[0]) {
        assert t[2..] == rest;
      } else {
        assert t[1..] == rest;
        if |rest| > 0 {
          EscapedHeadNotSpecial(s[1..]);
          assert t[1] == rest[0];
        }
      }
      assert [s[0]] + s[1..] == s;
    }
  }

  /** What a second escape does to each character: a reserved character ends
      up behind two backslashes. */
  function DoubleEscapeRef(s: string): string {
    if |s| == 0 then ""
    else (if IsSpecial(s[0]) then [Backslash, Backslash, s[0]] else [s[0]]) + DoubleEscapeRef(s[1..])
  }

  /** A second escape puts one more backslash in front of every reserved
      character, because the backslash is not reserved. */
  lemma {:induction false} EscapeTwice(s: string)
    ensures EscapeRef(EscapeRef(s)) == DoubleEscapeRef(s)
  {
    if |s| > 0 {
      EscapeTwice(s[1..]);
      EscapeRefAppend(EscapeCharIn(s[0], SpecialSet), EscapeRef(s[1..]));
      if IsSpecial(s[0]) {
        EscapeRefAppend([Backslash], [s[0]]);
        assert [Backslash, s[0]] == [Backslash] + [s[0]];
        EscapeOne(Backslash);
        EscapeOne(s[0]);
      } else {
        EscapeOne(s[0]);
      }
    }
  }

  /** Escaping is not idempotent: escaping escaped text changes any text that
      holds a reserved character. */
  lemma EscapeNotIdempotent(s: string)
    requires CountSpecials(s) > 0
    ensures EscapeRef(EscapeRef(s)) != EscapeRef(s)
    ensures |EscapeRef(EscapeRef(s))| == |EscapeRef(s)| + CountSpecials(s)
  {
    EscapeLength(s);
    EscapeLength(EscapeRef(s));
    EscapeCountGrows(s);
  }

  /** Every reserved character survives escaping, so escaped text has at least
      as many of them. */
  lemma {:induction false} EscapeCountGrows(s: string)
    ensures CountSpecials(EscapeRef(s)) == CountSpecials(s)
  {
    if |s| > 0 {
      EscapeCountGrows(s[1..]);
      CountSpecialsAppend(EscapeCharIn(s[0], SpecialSet), EscapeRef(s[1..]));
      if IsSpecial(s[0]) {
        assert [Backslash, s[0]][1..] == [s[0]];
      }
    }
  }

  lemma {:induction false} CountSpecialsAppend(a: string, b: string)
    ensures CountSpecials(a + b) == CountSpecials(a) + CountSpecials(b)
  {
    if |a| > 0 {
      CountSpecialsAppend(a[1..], b);
      assert (a + b)[1..] == a[1..] + b;
    } else {
      assert a + b == b;
    }
  }

  lemma EscapeOne(c: char)
    ensures EscapeRef([c]) == if IsSpecial(c) then [Backslash, c] else [c]
  {
    assert [c][1..] == [];
    assert EscapeIn([c], SpecialSet) == EscapeCharIn(c, SpecialSet) + EscapeIn([], SpecialSet);
  }

  // ---------------------------------------------------------------------------
  // How Telegram reads the escaped text back
  // ---------------------------------------------------------------------------

  /** Telegram's reading of MarkdownV2 text that is meant as plain text: a
      backslash makes the next character (codes 1 to 126) literal, and a
      reserved character without one opens markup. None: the text does not
      read back as plain text. */
  function ReadPlain(t: string): Option<string>
    decreases |t|
  {
    if |t| == 0 then Some("")
    else if t[0] == Backslash then
      if |t| >= 2 && 1 <= t[1] as int <= 126 then
        match ReadPlain(t[2..])
        case Some(r) => Some([t[1]] + r)
        case None => None
      else None
    else if IsSpecial(t[0]) then None
    else
      match ReadPlain(t[1..])
      case Some(r) => Some([t[0]] + r)
      case None => None
  }

  /** The source's escaper leaves a backslash as it is, so a backslash in
      front of a reserved character escapes the inserted backslash instead,
      and the reserved character is left bare. */
  lemma BackslashBreaksEscape(rest: string)
    ensures ReadPlain(EscapeMarkdownV2(Some([Backslash, '*'] + rest))) == None
  {
    EscapeIsCharMap(Some([Backslash, '*'] + rest));
    BackslashBreaksEscapeRef(rest);
  }

  lemma BackslashBreaksEscapeRef(rest: string)
    ensures ReadPlain(EscapeRef([Backslash, '*'] + rest)) == None
  {
    var x := [Backslash, '*'] + rest;
    var t := EscapeRef(x);
    assert t == EscapeCharIn(Backslash, SpecialSet) + EscapeRef(x[1..]);
    assert x[1..] == ['*'] + rest;
    assert EscapeRef(x[1..]) == EscapeCharIn('*', SpecialSet) + EscapeRef(rest);
    assert t == [Backslash, Backslash, '*'] + EscapeRef(rest);
    assert t[2..] == ['*'] + EscapeRef(rest);
  }

  /** The reserved characters together with the backslash. */
  const FullSpecialSet: set<char> := SpecialSet + {Backslash}

  /** The escaper with the backslash escaped as well. */
  function EscapeFull(s: string): string {
    EscapeIn(s, FullSpecialSet)
  }

  /** Text escaped with the backslash included always reads back as exactly
      the text that was escaped. */
  lemma {:induction false} ReadPlainEscapeFull(s: string)
    ensures ReadPlain(EscapeFull(s)) == Some(s)
  {
    if |s| > 0 {
      var rest := EscapeFull(s[1..]);
      ReadPlainEscapeFull(s[1..]);
      var t := EscapeFull(s);
      assert t == EscapeCharIn(s[0], FullSpecialSet) + rest;
      if s[0] in FullSpecialSet {
        assert 1 <= s[0] as int <= 126;
        assert t[2..] == rest;
      } else {
        assert t[1..] == rest;
      }
      assert [s[0]] + s[1..] == s;
    }
  }

  // ---------------------------------------------------------------------------
  // build_caption_md
  // ---------------------------------------------------------------------------

  /** `build_caption_md`: the escaped title in bold, a blank line, then the
      escaped description. */
  function BuildCaption(title: string, description: string): (r: string)
    ensures |r| >= |title| + |description| + 4
    ensures r[0] == '*'
  {
    "*" + EscapeMarkdownV2(Some(title)) + "*\n\n" + EscapeMarkdownV2(Some(description))
  }

  /** The pieces of a caption sit at fixed offsets. */
  lemma CaptionSlices(a: string, b: string)
    ensures ("*" + a + "*\n\n" + b)[1..1 + |a|] == a
    ensures ("*" + a + "*\n\n" + b)[|a| + 4..] == b
  {
  }

  /** The caption is the bold per-character escape of the title followed by
      that of the description; its length is fixed by the number of reserved
      characters, and both fields can be read back from it. */
  lemma CaptionLayout(title: string, description: string)
    ensures BuildCaption(title, description) == "*" + EscapeRef(title) + "*\n\n" + EscapeRef(description)
    ensures |BuildCaption(title, description)|
         == |title| + CountSpecials(title) + |description| + CountSpecials(description) + 4
    ensures Unescape(BuildCaption(title, description)[1..1 + |EscapeRef(title)|]) == title
    ensures Unescape(BuildCaption(title, description)[|EscapeRef(title)| + 4..]) == description
  {
    EscapeIsCharMap(Some(title));
    EscapeIsCharMap(Some(description));
    EscapeLength(title);
    EscapeLength(description);
    CaptionSlices(EscapeRef(title), EscapeRef(description));
    UnescapeEscape(title);
    UnescapeEscape(description);
  }
}

=== FILE: text.dfy ===
/** The handful of Python string built-ins the bot relies on: `str.strip()`,
    `str.split(sep)`, `str(i)` and `int(s)` for integers. */
module Text {
  import opened Wrappers

  // ---------------------------------------------------------------------------
  // str.strip()
  // ---------------------------------------------------------------------------

  /** The characters for which Python's `str.isspace()` holds. */
  const Whitespace: set<char> := {
    '\t', '\n', '\U{B}', '\U{C}', '\r', '\U{1C}', '\U{1D}', '\U{1E}', '\U{1F}', ' ',
    '\U{85}', '\U{A0}', '\U{1680}',
    '\U{2000}', '\U{2001}', '\U{2002}', '\U{2003}', '\U{2004}', '\U{2005}',
    '\U{2006}', '\U{2007}', '\U{2008}', '\U{2009}', '\U{200A}',
    '\U{2028}', '\U{2029}', '\U{202F}', '\U{205F}', '\U{3000}'
  }

  /** The number of characters of `ws` that `s` starts with. */
  function LeadIn(s: string, ws: set<char>): (n: nat)
    ensures n <= |s|
    ensures forall i :: 0 <= i < n ==> s[i] in ws
    ensures n < |s| ==> s[n] !in ws
  {
    if |s| > 0 && s[0] in ws then 1 + LeadIn(s[1..], ws) else 0
  }

  /** The number of characters of `ws` that `s` ends with. */
  function TrailIn(s: string, ws: set<char>): (n: nat)
    ensures n <= |s|
    ensures forall i :: |s| - n <= i < |s| ==> s[i] in ws
    ensures n < |s| ==> s[|s| - 1 - n] !in ws
  {
    if |s| > 0 && s[|s| - 1] in ws then 1 + TrailIn(s[..|s| - 1], ws) else 0
  }

  /** `s` without its leading and trailing characters from `ws`: the slice
      between the two runs, and empty exactly when all of `s` is in `ws`. */
  function StripIn(s: string, ws: set<char>): (r: string)
    ensures |r| == 0 <==> forall i :: 0 <= i < |s| ==> s[i] in ws
    ensures |r| > 0 ==> LeadIn(s, ws) + |r| + TrailIn(s, ws) == |s|
    ensures |r| > 0 ==> r == s[LeadIn(s, ws)..|s| - TrailIn(s, ws)]
    ensures |r| > 0 ==> r[0] !in ws && r[|r| - 1] !in ws
  {
    var lead := LeadIn(s, ws);
    if lead == |s| then "" else s[lead..|s| - TrailIn(s, ws)]
  }

  /** Python's `s.strip()` with no argument: strips the characters for which
      `str.isspace()` holds. */
  function Strip(s: string): (r: string)
    ensures |r| == 0 <==> forall i :: 0 <= i < |s| ==> s[i] in Whitespace
    ensures |r| > 0 ==> r[0] !in Whitespace && r[|r| - 1] !in Whitespace
  {
    StripIn(s, Whitespace)
  }

  // ---------------------------------------------------------------------------
  // str.split(sep) and its inverse sep.join(parts)
  // ---------------------------------------------------------------------------

  /** Python's `s.split(sep)` for a one-character separator: every occurrence
      cuts, empty pieces are kept, and there is always at least one piece. */
  function Split(s: string, sep: char): (r: seq<string>)
    ensures |r| >= 1
    ensures forall i :: 0 <= i < |r| ==> sep !in r[i]
  {
    if |s| == 0 then [""]
    else
      var rest := Split(s[1..], sep);
      if s[0] == sep then [""] + rest
      else [[s[0]] + rest[0]] + rest[1..]
  }

  /** Python's `sep.join(parts)`. */
  function Join(parts: seq<string>, sep: char): string {
    if |parts| == 0 then ""
    else if |parts| == 1 then parts[0]
    else parts[0] + [sep] + Join(parts[1..], sep)
  }

  /** Splitting loses nothing: joining the pieces back gives the input. */
  lemma {:induction false} JoinSplit(s: string, sep: char)
    ensures Join(Split(s, sep), sep) == s
  {
    if |s| > 0 {
      JoinSplit(s[1..], sep);
      var rest := Split(s[1..], sep);
      if s[0] == sep {
        assert s == [s[0]] + s[1..];
      } else {
        var r := Split(s, sep);
        assert r[0] == [s[0]] + rest[0] && r[1..] == rest[1..];
        if |rest| == 1 {
          assert s == [s[0]] + s[1..];
        } else {
          assert Join(rest, sep) == rest[0] + [sep] + Join(rest[1..], sep);
          assert s == [s[0]] + s[1..];
        }
      }
    }
  }

  /** A separator-free piece followed by the separator is split off as one piece. */
  lemma {:induction false} SplitCons(a: string, b: string, sep: char)
    requires sep !in a
    ensures Split(a + [sep] + b, sep) == [a] + Split(b, sep)
  {
    if |a| == 0 {
      assert a + [sep] + b == [sep] + b;
      assert ([sep] + b)[1..] == b;
    } else {
      SplitCons(a[1..], b, sep);
      assert (a + [sep] + b)[1..] == a[1..] + [sep] + b;
      assert [a[0]] + a[1..] == a;
    }
  }

  /** A separator-free string is a single piece. */
  lemma {:induction false} SplitNoSep(a: string, sep: char)
    requires sep !in a
    ensures Split(a, sep) == [a]
  {
    if |a| > 0 {
      SplitNoSep(a[1..], sep);
      assert [a[0]] + a[1..] == a;
    }
  }

  /** Joining separator-free pieces and splitting again returns the pieces. */
  lemma {:induction false} SplitJoin(parts: seq<string>, sep: char)
    requires |parts| >= 1
    requires forall i :: 0 <= i < |parts| ==> sep !in parts[i]
    ensures Split(Join(parts, sep), sep) == parts
  {
    if |parts| == 1 {
      SplitNoSep(parts[0], sep);
    } else {
      SplitJoin(parts[1..], sep);
      SplitCons(parts[0], Join(parts[1..], sep), sep);
      assert [parts[0]] + parts[1..] == parts;
    }
  }

  // ---------------------------------------------------------------------------
  // str(i) and int(s)
  // ---------------------------------------------------------------------------

  predicate IsDigit(c: char) {
    '0' <= c <= '9'
  }

  predicate AllDigits(s: string) {
    forall i :: 0 <= i < |s| ==> IsDigit(s[i])
  }

  function DigitChar(d: nat): (c: char)
    requires d < 10
    ensures IsDigit(c)
  {
    (48 + d) as char
  }

  function DigitValue(c: char): nat
    requires IsDigit(c)
  {
    (c as int) - 48
  }

  /** Python's `str(n)` for a non-negative integer: decimal, no leading zeros. */
  function NatToString(n: nat): (r: string)
    ensures |r| >= 1 && AllDigits(r)
    ensures |r| > 1 ==> r[0] != '0'
    decreases n
  {
    if n < 10 then [DigitChar(n)] else NatToString(n / 10) + [DigitChar(n % 10)]
  }

  /** Python's `str(i)`: a minus sign in front of negative numbers. */
  function IntToString(i: int): (r: string)
    ensures '_' !in r
  {
    if i < 0 then "-" + NatToString(-i) else NatToString(i)
  }

  /** The value of a run of decimal digits, most significant first. */
  function DigitsValue(s: string): nat
    requires AllDigits(s)
  {
    if |s| == 0 then 0 else DigitsValue(s[..|s| - 1]) * 10 + DigitValue(s[|s| - 1])
  }

  /** Python's `int(s)` over ASCII digits: an optional sign followed by at least
      one digit; anything else is the `ValueError` case, None. */
  function ParseInt(s: string): (r: Option<int>)
    ensures r.Some? <==> (AllDigits(s) && |s| >= 1) || (|s| >= 2 && (s[0] == '-' || s[0] == '+') && AllDigits(s[1..]))
  {
    if |s| >= 1 && (s[0] == '-' || s[0] == '+') then
      if |s| >= 2 && AllDigits(s[1..]) then
        var v: int := DigitsValue(s[1..]);
        Some(if s[0] == '-' then -v else v)
      else None
    else if |s| >= 1 && AllDigits(s) then Some(DigitsValue(s))
    else None
  }

  lemma {:induction false} DigitsValueOfNatToString(n: nat)
    ensures DigitsValue(NatToString(n)) == n
    decreases n
  {
    var s := NatToString(n);
    if n >= 10 {
      DigitsValueOfNatToString(n / 10);
      assert s[..|s| - 1] == NatToString(n / 10);
    }
  }

  /** `int(str(i)) == i` for every integer. */
  lemma ParseIntString(i: int)
    ensures ParseInt(IntToString(i)) == Some(i)
  {
    var s := IntToString(i);
    if i < 0 {
      DigitsValueOfNatToString(-i);
      assert s[1..] == NatToString(-i);
    } else {
      DigitsValueOfNatToString(i);
    }
  }
}

=== FILE: wrappers.dfy ===
/** Python's `None`-or-value, as an explicit datatype. */
module Wrappers {

  datatype Option<+T> = None | Some(value: T) {

    /** Returns the value held in Some, or `default` for None. */
    function GetOr(default: T): T {
      match this
      case Some(v) => v
      case None => default
    }

    /** `a or b` in Python when `a` is an optional element: the first one present. */
    function Or(other: Option<T>): Option<T> {
      match this
      case Some(_) => this
      case None => other
    }
  }

  /** Python truthiness of an optional string: present and non-empty. */
  predicate Truthy(s: Option<string>) {
    s.Some? && |s.value| > 0
  }
}
